=== FILE: README.md ===
# Onderwijs Assistent client: session and conversation state in Dafny

This project models the client-side state machine of the Onderwijs Assistent
chat client (`app.js`). The client keeps a session id, a list of
conversations, the current conversation, a message buffer and the user's
credentials. It sends user input to a chat backend, turns the replies
into messages, and saves every message to a conversations store.

Every operation is a pure function over an immutable `AppState`. Whatever
the browser or a server would supply is a parameter:

- the credential cookie, already parsed;
- the id the server gives a new conversation;
- the list the server returns;
- the outcome of the chat request;
- the answer to a confirmation or rename prompt;
- clock readings.

Requests the client sends are part of the results, so "no request goes out"
can be stated.

Modules, in the order they build on each other:

- `Wrappers`: `Option`.
- `JsText`: the JavaScript string behaviour the client relies on:
  - the `\s` and line-terminator classes;
  - `trim`;
  - `substring(0, n)`;
  - `toLowerCase`, as far as ASCII keywords can see it;
  - `includes`.
- `Model`: the entities (user, artifact, message, conversation), the stored
  credential record, `AppState`, JavaScript truthiness of strings, and
  first-match lookup by id.
- `Extraction`: how a reply flagged as an artifact becomes an `Artifact`.
  - The title comes from the multiline pattern `^#\s+(.+)$`.
  - The type comes from ordered keyword matching.
  - The snippet comes from the multiline pattern `^#.+\n+(.+)`.
  - Each pattern is given both as a "matches at this position" predicate and
    as a left-to-right search. The search is proved to return the leftmost
    match, and for the title the greedy one.
- `Filenames`: download file names.
- `Cookies`: reading one cookie out of `document.cookie`, with a round trip
  against the text a browser builds from stored cookies.
- `Records`: mapping the server's conversation and message records into the
  client's entities, and the record saved for each message.
- `Auth`: the authentication check with cookie hydration, logout, and the
  forced logout on a rejected token.
- `Conversations`: new chat, open, refresh, delete and rename.
- `Pipeline`: appending a message (with lazy conversation creation and the
  save request), handling a reply, and sending user input with every
  outcome of the chat request.

Behaviour the model follows from the code, where the client's comments and
names would suggest otherwise:

- **A title can come from the next line.** `\s+` in the title pattern also
  matches line breaks. So a lone `#` line followed by text yields that text
  as the title (`Extraction.TitleAcrossLineBreakExample`).
- **`## Heading` gives no title.** A second `#` is not white space, so such a
  line does not match the title pattern. It does start a snippet match.
- **Only `\n` separates a snippet.** Only `\n` may sit between the heading
  and snippet lines, so text with `\r\n` line ends has no snippet.
- **Not every unusable cookie is deleted.** Only a cookie that does not parse
  (or parses to `null`) is deleted. A cookie that parses to a record without
  a token is kept and ignored.
- **The save repeats the authentication check.** Every server helper
  (create, get, list, save, delete, rename) runs the check first, and the
  check can restore credentials from the cookie or delete it. The model runs
  it wherever the code does.

## Model

| member | source | states |
|---|---|---|
| JsText.Trim | app.js:635 | The trimmed input is no longer than the input and has no white space at either end. |
| JsText.TrimCutsOnlyWhitespace | app.js:635 | The trimmed text is a slice of the input, and only white space lies before and after that slice. |
| JsText.Take | app.js:788 | `substring(0, n)` gives a prefix of at most `n` characters, exactly `n` unless it is the whole text. |
| JsText.LowerChar | app.js:741 | An ASCII capital becomes the same letter in lower case, the Kelvin sign becomes `k`, and every other character is kept; so the result is never an ASCII capital, and a lower-case ASCII result comes only from those letters. |
| JsText.Lower | app.js:741 | Lower-casing keeps the length and lower-cases each character in place. |
| JsText.LowerIdempotent | app.js:741 | Lower-casing twice changes nothing more. |
| JsText.Contains | app.js:742-744 | `includes` is true exactly when the keyword occurs as a contiguous slice of the text. |
| Model.FindConversation | app.js:763 | The lookup finds the first conversation with the id, or reports that none has it. |
| Extraction.TitleSearch | app.js:736 | The title pattern is matched at the leftmost position where it matches at all, with the longest white-space gap there; none exactly when it matches nowhere. |
| Extraction.Title | app.js:736-737 | The title is never empty and is a single line. When the heading pattern matches, it is the rest of the line where the leftmost, longest-gap match starts its capture; otherwise it is the fallback title. |
| Extraction.TitleOfLeadingHeading | app.js:736-737 | A reply opening with `#`, white space and a line of text takes that line as its title. |
| Extraction.TitleAcrossLineBreakExample | app.js:736 | A lone `#` line followed by blank lines and an indented line takes that line's text as its title. |
| Extraction.SnippetSearch | app.js:747 | The snippet pattern is matched at the leftmost position where it matches, and the match there is the only one. |
| Extraction.Snippet | app.js:747-748 | The snippet is empty exactly when the snippet pattern matches nowhere. Otherwise it is the first 150 characters of the line the leftmost match captures, followed by `...`: at most 153 characters with no line break before the ellipsis. |
| Extraction.SnippetOfLeadingHeading | app.js:747-748 | A reply opening with a heading line, `\n` line breaks and a line of text has the first 150 characters of that line, plus `...`, as its snippet. |
| Extraction.LessonPlanExampleTitle | app.js:736-737 | The reply `# Lesplan Titel\nEerste alinea tekst...` has the title `Lesplan Titel`. |
| Extraction.LessonPlanExampleSnippet | app.js:747-748 | The same reply has the snippet `Eerste alinea tekst......`. |
| Extraction.LessonPlanExampleKind | app.js:740-744 | The same reply is classified as `Lesplan`. |
| Extraction.Classify | app.js:740-744 | Each of the four types is chosen exactly when its keywords occur in the lower-cased reply and no earlier group's keywords do. |
| Extraction.ClassifyIgnoresCase | app.js:741-744 | Two replies that differ only in letter case get the same type. |
| Extraction.ExtractArtifact | app.js:734-758 | The artifact holds the whole reply as content, with the derived title, type and snippet; its type is one of the four labels. |
| Filenames.Sanitize | app.js:938 | Length is kept; ASCII letters and digits stay in place; every other character becomes `_`. |
| Filenames.SanitizeIsSafe | app.js:938 | A sanitised name contains only ASCII letters, digits and `_`. |
| Filenames.SanitizeIdempotent | app.js:1070 | Sanitising twice changes nothing more, and an already safe name is left as it is. |
| Filenames.TextFileName | app.js:938 | The text download's name is the sanitised title followed by `.txt`: ASCII letters and digits of the title in place, only safe characters before the extension. |
| Filenames.WordFileName | app.js:1070 | The Word download's name is the sanitised title followed by `.docx`, with the same guarantees. |
| Filenames.FileNamesShareStem | app.js:938 | Both downloads of an artifact share their stem, and two titles give the same file name exactly when they sanitise alike. |
| Cookies.Split | app.js:118 | Splitting on `;` yields at least one piece, no piece holds `;`, and joining the pieces with `;` restores the text. |
| Cookies.SplitJoin | app.js:118 | Splitting undoes joining pieces that hold no `;`. |
| Cookies.FindSegment | app.js:119-121 | The search finds the first piece that starts with `name=` once trimmed, or reports that none does. |
| Cookies.GetCookie | app.js:116-126 | There is no value exactly when no trimmed piece starts with `name=`. Otherwise the first such piece is `name=` followed by the value. |
| Cookies.GetCookieFindsStoredValue | app.js:116-126 | Reading a cookie from the text the browser builds for well-formed cookies gives the value of the first cookie with that name. |
| Records.ToConversation | app.js:301-307 | A listed conversation keeps id and times. Its title falls back to the placeholder when missing or empty, and its count to zero. |
| Records.ToConversations | app.js:301-307 | The mapped list has one entry per record, in the server's order: each entry is that record mapped on its own, so ids are kept and titles are never empty. |
| Records.ToMessage | app.js:369-390 | A stored message keeps role and time. It carries an artifact exactly when its metadata parsed to one, and then its text is the placeholder. |
| Records.ToMessages | app.js:369-390 | The mapped buffer has one message per record, in order: each is that record mapped on its own, with the same role. |
| Records.ToServerRecord | app.js:811-816 | The saved record keeps the role and takes the server's time. An artifact message saves the artifact's full content with the artifact as metadata; any other message saves its text with no metadata. |
| Records.SavedMessageLoadsBack | app.js:811-816 | A message saved by the client loads back as itself, apart from the server's timestamp, when an artifact message carries the placeholder text. |
| Records.ArtifactTextNotSaved | app.js:813-814 | The text of an artifact message is not saved; it loads back as the placeholder, with the artifact intact. |
| Auth.IsAuthenticated | app.js:133-154 | The answer is yes exactly when a token is held afterwards. A held token means no change. Only token, user and cookie can change: token and user only from a cookie record with a token. Without a held token, an unreadable cookie is always deleted, and no other cookie is. |
| Auth.IsAuthenticatedIdempotent | app.js:133-154 | Asking twice gives the same answer and changes nothing more. |
| Auth.IsAuthenticatedExactly | app.js:133-154 | The answer is yes exactly when the state holds a token or a readable cookie carries one. |
| Auth.Logout | app.js:261-272 | Logging out drops token, expiry and user, deletes the cookie, and changes nothing else. |
| Auth.LogoutIdempotent | app.js:261-272 | Logging out twice is logging out once. |
| Auth.LoggedOutStaysOut | app.js:261-272 | After logging out the authentication check answers no and changes nothing. |
| Auth.ExpireSession | app.js:676-710 | The forced logout drops token and expiry and deletes the cookie, keeps the user, and changes nothing else. |
| Auth.ExpireThenLogout | app.js:676-690 | A forced logout differs from a logout only in keeping the user, and leaves the client unauthenticated. |
| Conversations.StartNewChat | app.js:829-839 | A new chat has the fresh session id, an empty buffer and no current conversation. The list and credentials stay. |
| Conversations.StartNewChatForgetsEarlier | app.js:829-839 | Two new chats in a row leave only the second session id. |
| Conversations.LoadConversation | app.js:841-867 | Opening the current conversation changes nothing. Otherwise it becomes current and the session id, and the buffer holds the server's messages when the check passes and the server sends them, else nothing. The list is kept. |
| Conversations.LoadConversationTwice | app.js:841-842 | Opening the same conversation again, whatever the server would answer, keeps the first result. |
| Conversations.RefreshConversations | app.js:281-319 | After a passing check, the server's list, mapped record by record, replaces the local one and marks it loaded. Otherwise only the check's effect remains. |
| Conversations.RefreshTwice | app.js:281-319 | Refreshing again with the list the server sent before changes nothing more. |
| Conversations.Count | app.js:875 | The number of conversations with an id is zero exactly when none has it, and never more than the list's length. |
| Conversations.Without | app.js:875 | The filtered list holds no conversation with the id and keeps every other one, in the original relative order, and nothing else. It is shorter by exactly the number of conversations with the id. With no match it is the list itself. |
| Conversations.WithoutIdempotent | app.js:875 | Filtering twice removes nothing more. |
| Conversations.DeleteConversation | app.js:869-885 | A cancelled confirmation changes nothing and sends nothing. Otherwise the request goes out iff the check passes. Whatever the server answers, the list becomes the filtered list, with every copy of the id gone and the rest in order. Buffer and current are cleared only for the current conversation. |
| Conversations.DeleteMissingKeepsList | app.js:869-885 | Deleting an id no conversation has, when it is not current, changes only what the authentication check changes. |
| Conversations.RenameConversation | app.js:887-900 | No change and no request when the id is unknown, the answer is cancelled or empty, or it equals the title. Otherwise the first conversation with the id takes the answer as its title and no other conversation changes. |
| Conversations.RenameKeepsIds | app.js:887-900 | Renaming keeps the list's length and every id in place. |
| Conversations.RenameTwice | app.js:891-892 | Giving the same answer again changes nothing and sends no request. |
| Pipeline.ConversationTitle | app.js:788 | A new conversation's title is never empty and at most 40 characters. It is a prefix of the text, 40 long or all of it, and the placeholder only for an empty text. |
| Pipeline.OpenConversation | app.js:786-808 | The new conversation goes to the front of the list and becomes current and the session id. Its id is the server's when the check passes and the server gives one, else the old session id. |
| Pipeline.AddMessage | app.js:782-821 | Exactly the stamped message is appended. A conversation is created only for a user message into an empty buffer. The new conversation is exactly id, title from the text and creation time, with no update time or count. A save request goes out exactly when a current conversation is set and the check passes. It saves the artifact's content with the artifact as metadata, or the text with no metadata, and what it saves loads back as the message. |
| Pipeline.AssistantMessageKeepsList | app.js:787 | An assistant message never creates a conversation or touches the list, the current conversation or the session id. |
| Pipeline.OnlyFirstMessageCreates | app.js:787 | The message after the first never creates a conversation. |
| Pipeline.CurrentIndex | app.js:763 | The index found is the first conversation whose id is the current one, or none has it. |
| Pipeline.RetitleCurrent | app.js:762-769 | Only the current conversation's first entry can change, only when its title is the placeholder, and then to the first 40 characters of the artifact title. Nothing else in the state changes. |
| Pipeline.RetitleIdempotent | app.js:762-769 | Retitling twice with the same title is retitling once. |
| Pipeline.ReplyText | app.js:727 | The reply text is the first non-empty one of `output`, `response` and `message`, and empty only when all three are. |
| Pipeline.HandleResponse | app.js:726-780 | Exactly one assistant message is appended. It is either the artifact placeholder carrying the artifact extracted from the reply text, or the reply text. Only an artifact can retitle the current conversation, and a user profile in the reply replaces the state's. Expiry and the loaded flag stay; token and cookie change only through the save's check. |
| Pipeline.HandledReplyLoadsBack | app.js:726-780 | The message a reply becomes, once saved and loaded back, is itself apart from the server's timestamp, artifact included. |
| Pipeline.Say | app.js:717-720 | A fixed assistant notice is appended and the list, current conversation, session id, expiry and loaded flag stay. |
| Pipeline.ForcesLogout | app.js:676-699 | Only an answer can end the session, and a 401 always does. |
| Pipeline.Fails | app.js:676-720 | A network failure always fails; a failure never also ends the session; an outcome that does neither is a successful answer with a parsed body. |
| Pipeline.Answer | app.js:676-723 | Exactly one assistant message is appended; the current conversation and session id stay. A 401, or an error asking for authentication, adds the session-expired notice and ends the session but keeps the user and the list. Other failures add the error message and change no list, expiry or credential beyond the save's check. Both notices carry the answer's time and no artifact. Otherwise the reply is handled as `handleResponse` does, so the message carries the extracted artifact, the token and expiry stay, and only an artifact can retitle the list. |
| Pipeline.OutcomeBranches | app.js:676-720 | Every outcome of the chat request falls in exactly one of: forced logout, generic failure, handled reply. |
| Pipeline.Ask | app.js:655 | The user message is appended. The first message opens a conversation at the front of the list: exactly the server's id, the title from the text and the send time, made current. A later one leaves list and current alone. |
| Pipeline.Converse | app.js:654-723 | An authenticated send asks with the trimmed text, the session id after the user message and the token, and keeps that session id. It appends exactly the user message and one assistant answer chosen by the outcome, stamped with the answer's time and carrying the extracted artifact only for a handled artifact reply. A forced logout also clears the expiry. A later message keeps the current conversation, and keeps the list unless an artifact retitles it; the first puts one new conversation in front of the list. |
| Pipeline.ConverseHandledFrame | app.js:726-780 | After a handled reply the user is the reply's profile or the one held before, and the cookie is untouched. The list is the one after the user message, retitled from the placeholder only for an artifact. |
| Pipeline.Send | app.js:633-724 | Blank input does nothing. Without credentials the session-expired notice is added, nothing is sent, and nothing else changes beyond the authentication check. Otherwise the send is the authenticated exchange, and the session survives every outcome except a forced logout. |
| Pipeline.SendAllAddsTwoPerTurn | app.js:633-724 | While the server does not end the session, every non-blank send adds exactly two messages after the earlier ones. |
| Pipeline.SendAfterForcedLogout | app.js:640-646 | After the server has ended the session, a further send only adds the session-expired notice and sends nothing. |

## Left out

- The login form (`handleLogin`) is left out. The model starts from whatever token, user and cookie the state holds.
- DOM rendering, the welcome and message views, the login modal, the typing indicator and `updateUserInfo` are left out. They show state and do not change it.
- `fetch` and JSON transport are left out. Every server answer is a parameter that has already been parsed.
- `localStorage` (`saveState`, `loadState`) is left out. Writing the cookie (`setCookie`) is left out too. Deleting the cookie is modelled as the `NoCookie` value.
- `decodeURIComponent` on the cookie value (app.js:122) is left out. `Cookies.GetCookie` returns the raw value, and `StoredAuth` is the outcome of parsing the decoded text.
- A cookie value with a malformed `%` escape is left out, and `StoredAuth` has no value for it. With a token held, `isAuthenticated` answers at app.js:135 and never reads the cookie. With no token, it calls `getCookie` at app.js:138, outside the `try`, and `decodeURIComponent` (app.js:122) throws. The effect depends on the caller:
  - the list refresh rejects at app.js:282, before it changes anything;
  - `sendMessage` stops at app.js:640, before it adds a message;
  - `deleteConversation` stops at app.js:872, before the filter at app.js:875;
  - `renameConversation` stops at app.js:894, before the title change at app.js:897;
  - `loadConversation` catches the error in its `try` (app.js:854-861). It ends with the conversation current, the session id changed and an empty buffer, as after a failing check.
- Markdown rendering, the Word export (`processNode`, the `docx` library), the clipboard and the Google Docs handoff are left out. They are library and browser calls; only the file names are modelled.
- The `isLoading` and `isSyncing` guards are left out. They only matter when sends or refreshes overlap in the browser's event loop.
- `Date` and the random session id are inputs. The timestamp and the `createdAt` that `addMessage` reads separately share one stamp.
- Strings are sequences of Unicode scalar values, while JavaScript works on UTF-16 code units. This matters only for characters outside the Basic Multilingual Plane, and in two places. The 40- and 150-character cuts count such a character twice. The file-name `replace` sees it as two units and writes `__` where `Filenames.Sanitize` writes one `_`.
- JsText.LowerChar: `toLowerCase` is modelled one character at a time, and only as far as it produces ASCII letters from `A`-`Z` and the Kelvin sign. Every other character is kept. So `İ` (U+0130) stays, while JavaScript turns it into `i` followed by U+0307. No keyword of `Extraction.Classify` ends in `i` or holds U+0307, so the type is the same either way; the lower-cased text itself is not modelled outside ASCII.
- Server fields that are not strings where the client expects strings, such as a numeric title or an object as reply text, are left out. JSON serialisation of the saved artifact is taken to be lossless.

=== FILE: auth.dfy ===
/** The client's view of its credentials: the token and user held in the
    state, the credential cookie they can be restored from, logging out, and
    the forced logout when the chat endpoint rejects the token. */
module Auth {
  import opened Wrappers
  import opened Model

  /** The answer of the authentication check together with the state it
      leaves behind: the check restores credentials from the cookie and
      deletes a cookie it cannot read. */
  datatype AuthCheck = AuthCheck(ok: bool, state: AppState)

  /** `isAuthenticated()`: a token in the state settles it; otherwise a cookie
      record with a token restores token and user, and a cookie that does not
      parse is deleted. */
  function IsAuthenticated(st: AppState): (r: AuthCheck)
    ensures r.ok <==> Truthy(r.state.authToken)
    ensures Truthy(st.authToken) ==> r == AuthCheck(true, st)
    ensures r.state == st.(authToken := r.state.authToken, user := r.state.user, cookie := r.state.cookie)
    ensures (r.state.authToken != st.authToken || r.state.user != st.user) ==>
              st.cookie.Stored? && Truthy(st.cookie.token)
              && r.state.authToken == st.cookie.token && r.state.user == st.cookie.user
    ensures r.state.cookie != st.cookie ==> st.cookie.Corrupt? && r.state.cookie == NoCookie
    ensures !Truthy(st.authToken) && st.cookie.Corrupt? ==> r.state.cookie == NoCookie
    ensures r.ok ==> Truthy(st.authToken) || (st.cookie.Stored? && Truthy(st.cookie.token))
  {
    if Truthy(st.authToken) then AuthCheck(true, st)
    else match st.cookie
      case Stored(token, user) =>
        if Truthy(token) then AuthCheck(true, st.(authToken := token, user := user))
        else AuthCheck(false, st)
      case Corrupt => AuthCheck(false, st.(cookie := NoCookie))
      case NoCookie => AuthCheck(false, st)
  }

  /** Asking twice gives the same answer and changes nothing more. */
  lemma IsAuthenticatedIdempotent(st: AppState)
    ensures IsAuthenticated(IsAuthenticated(st).state) == AuthCheck(IsAuthenticated(st).ok, IsAuthenticated(st).state)
  {
  }

  /** The answer is yes exactly when the state holds a token or a readable
      cookie carries one. */
  lemma IsAuthenticatedExactly(st: AppState)
    ensures IsAuthenticated(st).ok <==> Truthy(st.authToken) || (st.cookie.Stored? && Truthy(st.cookie.token))
  {
  }

  /** `handleLogout()`: token, expiry and user are dropped and the cookie is
      deleted; conversations and messages stay. */
  function Logout(st: AppState): (r: AppState)
    ensures r.authToken.None? && r.tokenExpiry.None? && r.user.None? && r.cookie == NoCookie
    ensures r.(authToken := st.authToken, tokenExpiry := st.tokenExpiry, user := st.user, cookie := st.cookie) == st
  {
    st.(authToken := None, tokenExpiry := None, user := None, cookie := NoCookie)
  }

  /** Logging out twice is logging out once. */
  lemma LogoutIdempotent(st: AppState)
    ensures Logout(Logout(st)) == Logout(st)
  {
  }

  /** After logging out the client is unauthenticated, and asking does not
      change that or anything else. */
  lemma LoggedOutStaysOut(st: AppState)
    ensures IsAuthenticated(Logout(st)) == AuthCheck(false, Logout(st))
  {
  }

  /** The forced logout of the chat endpoint (a 401 answer, or an error with
      `authRequired`): token and expiry are dropped and the cookie is deleted,
      but the user profile is kept. */
  function ExpireSession(st: AppState): (r: AppState)
    ensures r.authToken.None? && r.tokenExpiry.None? && r.cookie == NoCookie
    ensures r.user == st.user
    ensures r.(authToken := st.authToken, tokenExpiry := st.tokenExpiry, cookie := st.cookie) == st
  {
    st.(authToken := None, tokenExpiry := None, cookie := NoCookie)
  }

  /** A forced logout differs from a logout only in keeping the user. */
  lemma ExpireThenLogout(st: AppState)
    ensures Logout(ExpireSession(st)) == Logout(st)
    ensures ExpireSession(st).(user := None) == Logout(st)
    ensures !IsAuthenticated(ExpireSession(st)).ok
  {
  }
}

=== FILE: conversations.dfy ===
/** The conversation list operations of the sidebar: starting a new chat,
    opening, refreshing, deleting and renaming conversations. Deleting and
    renaming change the local list whatever the server answers, so the
    server's answer is not an input; whether a request was sent is part of
    the result. */
module Conversations {
  import opened Wrappers
  import opened Model
  import opened Auth
  import opened Records

  /** The state after an operation and whether it sent a request to the
      server (a server helper sends one only after a positive
      authentication check). */
  datatype Step = Step(state: AppState, requested: bool)

  /** `xs` can be obtained from `ys` by leaving elements out. */
  predicate IsSubsequence<T(==)>(xs: seq<T>, ys: seq<T>)
    decreases |ys|
  {
    if xs == [] then true
    else if ys == [] then false
    else if xs[0] == ys[0] then IsSubsequence(xs[1..], ys[1..])
    else IsSubsequence(xs, ys[1..])
  }

  /** `startNewChat()`: a fresh session id and an empty buffer with no current
      conversation; the list and the credentials stay. */
  function StartNewChat(st: AppState, freshId: string): (r: AppState)
    ensures r.sessionId == freshId && r.messages == [] && r.currentConversation.None?
    ensures r.(sessionId := st.sessionId, messages := st.messages, currentConversation := st.currentConversation) == st
  {
    st.(sessionId := freshId, messages := [], currentConversation := None)
  }

  /** Starting a new chat twice leaves only the second session id. */
  lemma StartNewChatForgetsEarlier(st: AppState, a: string, b: string)
    ensures StartNewChat(StartNewChat(st, a), b) == StartNewChat(st, b)
  {
  }

  /** `loadConversation(id)`. Opening the current conversation does nothing.
      Otherwise it becomes current and the session id; the buffer is emptied and
      then filled with the server's messages when the authentication check
      passes and the server sends a list (`fetched`). */
  function LoadConversation(st: AppState, id: string, fetched: Option<seq<ServerMessage>>): (r: AppState)
    ensures st.currentConversation == Some(id) ==> r == st
    ensures r.currentConversation == Some(id) && r.conversations == st.conversations
    ensures st.currentConversation != Some(id) ==> r.sessionId == id
    ensures st.currentConversation != Some(id) ==>
              r.messages == (if IsAuthenticated(st).ok && fetched.Some? then ToMessages(fetched.value) else [])
    ensures st.currentConversation != Some(id) ==>
              r.(currentConversation := st.currentConversation, sessionId := st.sessionId, messages := st.messages) == IsAuthenticated(st).state
  {
    if st.currentConversation == Some(id) then st
    else
      var cleared := st.(currentConversation := Some(id), sessionId := id, messages := []);
      var auth := IsAuthenticated(cleared);
      var loaded := if auth.ok && fetched.Some? then ToMessages(fetched.value) else [];
      if |loaded| > 0 then auth.state.(messages := loaded) else auth.state
  }

  /** Opening a conversation a second time, whatever the server would answer,
      keeps what the first opening loaded. */
  lemma LoadConversationTwice(st: AppState, id: string, first: Option<seq<ServerMessage>>, second: Option<seq<ServerMessage>>)
    ensures LoadConversation(LoadConversation(st, id, first), id, second) == LoadConversation(st, id, first)
  {
  }

  /** The list refresh: after a positive authentication check a list from the
      server replaces the local one, in the server's order, and marks the list
      as loaded; without one nothing but the check's effect remains. */
  function RefreshConversations(st: AppState, listed: Option<seq<ServerConversation>>): (r: AppState)
    ensures IsAuthenticated(st).ok && listed.Some? ==>
              && |r.conversations| == |listed.value|
              && (forall i :: 0 <= i < |listed.value| ==> r.conversations[i].id == listed.value[i].id)
              && r.conversationsLoaded
    ensures IsAuthenticated(st).ok && listed.Some? ==> r.conversations == ToConversations(listed.value)
    ensures !(IsAuthenticated(st).ok && listed.Some?) ==> r == IsAuthenticated(st).state
    ensures r.(conversations := st.conversations, conversationsLoaded := st.conversationsLoaded) == IsAuthenticated(st).state
  {
    var auth := IsAuthenticated(st);
    if auth.ok && listed.Some? then
      auth.state.(conversations := ToConversations(listed.value), conversationsLoaded := true)
    else auth.state
  }

  /** A refresh with the list the server sent before changes nothing more:
      the local list is the server's, in its order. */
  lemma RefreshTwice(st: AppState, listed: Option<seq<ServerConversation>>)
    ensures RefreshConversations(RefreshConversations(st, listed), listed) == RefreshConversations(st, listed)
  {
  }

  /** How many conversations in `cs` carry `id`. */
  function Count(cs: seq<Conversation>, id: string): (n: nat)
    ensures n <= |cs|
    ensures n == 0 <==> forall k :: 0 <= k < |cs| ==> cs[k].id != id
  {
    if cs == [] then 0
    else (if cs[0].id == id then 1 else 0) + Count(cs[1..], id)
  }

  /** `state.conversations.filter(c => c.id !== id)`. */
  function Without(cs: seq<Conversation>, id: string): (r: seq<Conversation>)
    ensures forall i :: 0 <= i < |r| ==> r[i].id != id
    ensures forall c :: c in cs && c.id != id ==> c in r
    ensures forall c :: c in r ==> c in cs
    ensures IsSubsequence(r, cs)
    ensures (forall k :: 0 <= k < |cs| ==> cs[k].id != id) ==> r == cs
    ensures |r| == |cs| - Count(cs, id)
  {
    if cs == [] then []
    else
      var rest := Without(cs[1..], id);
      if cs[0].id == id then
        assert rest == [] || rest[0] != cs[0];
        rest
      else
        var r := [cs[0]] + rest;
        assert r[1..] == rest;
        assert forall c :: c in cs && c.id != id ==> c == cs[0] || c in cs[1..];
        r
  }

  /** Filtering twice removes nothing more. */
  lemma WithoutIdempotent(cs: seq<Conversation>, id: string)
    ensures Without(Without(cs, id), id) == Without(cs, id)
  {
  }

  /** `deleteConversation(id)`. A cancelled confirmation changes nothing.
      Otherwise the delete request goes out if the authentication check
      passes, and, whatever the server answers, every conversation with that id
      leaves the list; the buffer and the current conversation are cleared
      only when it was the current one. */
  function DeleteConversation(st: AppState, id: string, confirmed: bool): (r: Step)
    ensures !confirmed ==> r == Step(st, false)
    ensures confirmed ==> r.requested == IsAuthenticated(st).ok
    ensures confirmed ==> r.state.conversations == Without(st.conversations, id)
    ensures confirmed ==> forall i :: 0 <= i < |r.state.conversations| ==> r.state.conversations[i].id != id
    ensures confirmed ==> forall c :: c in st.conversations && c.id != id ==> c in r.state.conversations
    ensures confirmed ==> |r.state.conversations| == |st.conversations| - Count(st.conversations, id)
    ensures IsSubsequence(r.state.conversations, st.conversations)
    ensures confirmed && st.currentConversation == Some(id) ==> r.state.currentConversation.None? && r.state.messages == []
    ensures st.currentConversation != Some(id) ==>
              r.state.currentConversation == st.currentConversation && r.state.messages == st.messages
    ensures confirmed ==>
              r.state.(conversations := st.conversations, currentConversation := st.currentConversation, messages := st.messages)
              == IsAuthenticated(st).state
  {
    if !confirmed then
      SubsequenceOfItself(st.conversations);
      Step(st, false)
    else
      var auth := IsAuthenticated(st);
      var kept := auth.state.(conversations := Without(st.conversations, id));
      var s := if st.currentConversation == Some(id) then kept.(currentConversation := None, messages := []) else kept;
      Step(s, auth.ok)
  }

  /** Every sequence is a subsequence of itself. */
  lemma {:induction false} SubsequenceOfItself<T>(xs: seq<T>)
    ensures IsSubsequence(xs, xs)
    decreases |xs|
  {
    if xs != [] {
      SubsequenceOfItself(xs[1..]);
    }
  }

  /** Deleting an id no conversation has changes only what the
      authentication check changes. */
  lemma DeleteMissingKeepsList(st: AppState, id: string)
    requires forall k :: 0 <= k < |st.conversations| ==> st.conversations[k].id != id
    requires st.currentConversation != Some(id)
    ensures DeleteConversation(st, id, true).state == IsAuthenticated(st).state
  {
  }

  /** `renameConversation(id)` with `answer` the prompt's result (none when
      cancelled). Nothing happens, and no request goes out, when no
      conversation has the id, the answer is empty or cancelled, or it equals
      the current title. Otherwise the first conversation with the id takes
      the answer as its title, whatever the server answers. */
  function RenameConversation(st: AppState, id: string, answer: Option<string>): (r: Step)
    ensures FindConversation(st.conversations, id).None? ==> r == Step(st, false)
    ensures FindConversation(st.conversations, id).Some? ==>
              var i := FindConversation(st.conversations, id).value;
              if !Truthy(answer) || answer.value == st.conversations[i].title then r == Step(st, false)
              else
                && r.requested == IsAuthenticated(st).ok
                && |r.state.conversations| == |st.conversations|
                && r.state.conversations[i] == st.conversations[i].(title := answer.value)
                && (forall k :: 0 <= k < |st.conversations| && k != i ==> r.state.conversations[k] == st.conversations[k])
                && r.state.(conversations := st.conversations) == IsAuthenticated(st).state
  {
    match FindConversation(st.conversations, id)
    case None => Step(st, false)
    case Some(i) =>
      var conv := st.conversations[i];
      if !Truthy(answer) || answer.value == conv.title then Step(st, false)
      else
        var auth := IsAuthenticated(st);
        Step(auth.state.(conversations := st.conversations[i := conv.(title := answer.value)]), auth.ok)
  }

  /** Renaming keeps every id, so the renamed conversation is found where it was. */
  lemma RenameKeepsIds(st: AppState, id: string, answer: Option<string>)
    ensures var cs := RenameConversation(st, id, answer).state.conversations;
            |cs| == |st.conversations| && forall k :: 0 <= k < |cs| ==> cs[k].id == st.conversations[k].id
  {
  }

  /** Giving the same answer again is a no-op without a request. */
  lemma RenameTwice(st: AppState, id: string, answer: Option<string>)
    ensures var once := RenameConversation(st, id, answer).state;
            RenameConversation(once, id, answer) == Step(once, false)
  {
    var once := RenameConversation(st, id, answer).state;
    match FindConversation(st.conversations, id)
    case None =>
    case Some(i) =>
      RenameKeepsIds(st, id, answer);
      SameIdsSameFind(st.conversations, once.conversations, id);
  }

  /** First-match search by id only looks at ids. */
  lemma {:induction false} SameIdsSameFind(a: seq<Conversation>, b: seq<Conversation>, id: string)
    requires |a| == |b| && forall k :: 0 <= k < |a| ==> a[k].id == b[k].id
    ensures FindConversation(a, id) == FindConversation(b, id)
    decreases |a|
  {
    if a != [] && a[0].id != id {
      SameIdsSameFind(a[1..], b[1..], id);
    }
  }
}

=== FILE: cookies.dfy ===
/** Reading one cookie out of the `document.cookie` text: the text is split
    on `;`, each piece is trimmed, and the first piece that starts with the
    name followed by `=` gives the value. The value is returned as stored:
    the percent-decoding the client applies afterwards is not part of this
    model. */
module Cookies {
  import opened Wrappers
  import opened JsText

  /** `s.split(';')`: the pieces between separators, in order; there is always
      at least one. */
  function Split(s: string): (parts: seq<string>)
    ensures |parts| >= 1
    ensures forall i :: 0 <= i < |parts| ==> ';' !in parts[i]
    ensures Join(parts) == s
  {
    if s == [] then [""]
    else
      var rest := Split(s[1..]);
      if s[0] == ';' then
        [""] + rest
      else
        assert Join(rest) == s[1..];
        var parts := [[s[0]] + rest[0]] + rest[1..];
        JoinHead(rest, s[0]);
        parts
  }

  /** The pieces glued back together with `;` between them. */
  function Join(parts: seq<string>): string
    requires |parts| >= 1
  {
    if |parts| == 1 then parts[0] else parts[0] + ";" + Join(parts[1..])
  }

  /** Prefixing the first piece prefixes the joined text. */
  lemma JoinHead(parts: seq<string>, c: char)
    requires |parts| >= 1
    ensures Join([[c] + parts[0]] + parts[1..]) == [c] + Join(parts)
  {
    var ps := [[c] + parts[0]] + parts[1..];
    if |parts| > 1 {
      assert ps[1..] == parts[1..];
    }
  }

  /** Splitting undoes joining, as long as no piece holds a `;`. */
  lemma {:induction false} SplitJoin(parts: seq<string>)
    requires |parts| >= 1
    requires forall i :: 0 <= i < |parts| ==> ';' !in parts[i]
    ensures Split(Join(parts)) == parts
    decreases |Join(parts)|
  {
    var p := parts[0];
    if p == [] {
      if |parts| > 1 {
        assert Join(parts) == ";" + Join(parts[1..]);
        SplitJoin(parts[1..]);
        assert Join(parts)[1..] == Join(parts[1..]);
      }
    } else {
      var tail := [p[1..]] + parts[1..];
      assert ';' !in tail[0] by {
        assert forall k :: 0 <= k < |p[1..]| ==> p[1..][k] == p[k + 1];
      }
      assert forall i :: 0 <= i < |tail| ==> ';' !in tail[i];
      JoinHead(tail, p[0]);
      assert [p[0]] + p[1..] == p;
      assert tail[1..] == parts[1..];
      assert [[p[0]] + tail[0]] + tail[1..] == parts;
      assert Join(parts) == [p[0]] + Join(tail);
      SplitJoin(tail);
      assert Join(parts)[1..] == Join(tail);
      assert p[0] != ';';
    }
  }

  /** A piece of cookie text, trimmed, starts with `prefix`. */
  predicate SegmentStartsWith(segment: string, prefix: string) {
    prefix <= Trim(segment)
  }

  /** Index of the first piece that starts with `prefix` once trimmed. */
  function FindSegment(segments: seq<string>, prefix: string): (r: Option<nat>)
    ensures r.Some? ==> r.value < |segments| && SegmentStartsWith(segments[r.value], prefix)
    ensures r.Some? ==> forall k :: 0 <= k < r.value ==> !SegmentStartsWith(segments[k], prefix)
    ensures r.None? ==> forall k :: 0 <= k < |segments| ==> !SegmentStartsWith(segments[k], prefix)
  {
    if segments == [] then None
    else if SegmentStartsWith(segments[0], prefix) then Some(0)
    else match FindSegment(segments[1..], prefix)
      case Some(i) => Some(i + 1)
      case None => None
  }

  /** `getCookie(name)`: the raw value of the first cookie called `name`, or
      none. */
  function GetCookie(cookieText: string, name: string): (r: Option<string>)
    ensures r.None? ==> forall k :: 0 <= k < |Split(cookieText)| ==> !SegmentStartsWith(Split(cookieText)[k], name + "=")
    ensures r.Some? ==> && FindSegment(Split(cookieText), name + "=").Some?
                        && Trim(Split(cookieText)[FindSegment(Split(cookieText), name + "=").value]) == name + "=" + r.value
  {
    var segments := Split(cookieText);
    match FindSegment(segments, name + "=")
    case Some(i) =>
      var t := Trim(segments[i]);
      assert SegmentStartsWith(segments[i], name + "=");
      assert t == name + "=" + t[|name| + 1..];
      Some(t[|name| + 1..])
    case None => None
  }

  // ---------------------------------------------------------- round trip

  /** One stored cookie. */
  datatype Pair = Pair(name: string, value: string)

  /** A cookie the browser can hand back unchanged inside `document.cookie`:
      no `;` anywhere, no `=` in the name, and no white space where trimming
      would remove it. */
  predicate WellFormed(p: Pair) {
    && ';' !in p.name && '=' !in p.name && ';' !in p.value
    && (p.name == [] || !IsWhitespace(p.name[0]))
    && (p.value == [] || !IsWhitespace(p.value[|p.value| - 1]))
  }

  /** The piece of `document.cookie` for the `i`-th cookie: `name=value`,
      after a space for every cookie but the first. */
  function Segment(pairs: seq<Pair>, i: nat): string
    requires i < |pairs|
  {
    (if i == 0 then "" else " ") + pairs[i].name + "=" + pairs[i].value
  }

  /** `document.cookie` for the given cookies: `a=1; b=2`. */
  function CookieText(pairs: seq<Pair>): string
    requires |pairs| >= 1
  {
    Join(seq(|pairs|, i requires 0 <= i < |pairs| => Segment(pairs, i)))
  }

  /** Index of the first cookie called `name`. */
  function FirstNamed(pairs: seq<Pair>, name: string): (r: Option<nat>)
    ensures r.Some? ==> r.value < |pairs| && pairs[r.value].name == name
    ensures r.Some? ==> forall k :: 0 <= k < r.value ==> pairs[k].name != name
    ensures r.None? ==> forall k :: 0 <= k < |pairs| ==> pairs[k].name != name
  {
    if pairs == [] then None
    else if pairs[0].name == name then Some(0)
    else match FirstNamed(pairs[1..], name)
      case Some(i) => Some(i + 1)
      case None => None
  }

  /** The value of the first cookie called `name`. */
  function Lookup(pairs: seq<Pair>, name: string): Option<string>
  {
    match FirstNamed(pairs, name)
    case Some(i) => Some(pairs[i].value)
    case None => None
  }

  /** Trimming a piece gives back the bare `name=value`. */
  lemma TrimSegment(pairs: seq<Pair>, i: nat)
    requires i < |pairs| && WellFormed(pairs[i])
    ensures Trim(Segment(pairs, i)) == pairs[i].name + "=" + pairs[i].value
  {
    var bare := pairs[i].name + "=" + pairs[i].value;
    assert bare[|pairs[i].name|] == '=';
    assert bare[0] == (if pairs[i].name == [] then '=' else pairs[i].name[0]);
    assert bare[|bare| - 1] == (if pairs[i].value == [] then '=' else pairs[i].value[|pairs[i].value| - 1]);
    TrimOfTrimmed(bare);
    if i > 0 {
      assert Segment(pairs, i) == " " + bare;
      assert TrimStart(" " + bare) == TrimStart(bare) by {
        assert (" " + bare)[1..] == bare;
      }
    }
  }

  /** With no `=` in either name, `name=` opens `n=v` exactly when the names agree. */
  lemma PrefixMatchesName(name: string, n: string, v: string)
    requires '=' !in name && '=' !in n
    ensures name + "=" <= n + "=" + v <==> n == name
  {
    var s := n + "=" + v;
    var pre := name + "=";
    if |name| < |n| {
      assert s[|name|] == n[|name|] && n[|name|] in n;
      assert pre[|name|] == '=';
    } else if |name| > |n| {
      assert s[|n|] == '=';
      assert pre[|n|] == name[|n|] && name[|n|] in name;
    } else {
      assert s[..|pre|] == n + "=";
      assert (n + "=")[..|n|] == n;
      assert pre[..|name|] == name;
    }
  }

  /** Reading back a cookie from the text the browser builds gives the value
      of the first cookie with that name. */
  lemma GetCookieFindsStoredValue(pairs: seq<Pair>, name: string)
    requires |pairs| >= 1
    requires forall i :: 0 <= i < |pairs| ==> WellFormed(pairs[i])
    requires '=' !in name
    ensures GetCookie(CookieText(pairs), name) == Lookup(pairs, name)
  {
    var segments := seq(|pairs|, i requires 0 <= i < |pairs| => Segment(pairs, i));
    assert forall i :: 0 <= i < |segments| ==> ';' !in segments[i] by {
      forall i | 0 <= i < |segments|
        ensures ';' !in segments[i]
      {
        assert segments[i] == (if i == 0 then "" else " ") + pairs[i].name + "=" + pairs[i].value;
      }
    }
    SplitJoin(segments);
    forall i | 0 <= i < |pairs|
      ensures SegmentStartsWith(segments[i], name + "=") <==> pairs[i].name == name
      ensures Trim(segments[i]) == pairs[i].name + "=" + pairs[i].value
    {
      TrimSegment(pairs, i);
      PrefixMatchesName(name, pairs[i].name, pairs[i].value);
    }
    SameFirstMatch(segments, name + "=", pairs, name);
  }

  /** Two first-match searches over aligned sequences agree when their tests
      agree position by position. */
  lemma SameFirstMatch(segments: seq<string>, prefix: string, pairs: seq<Pair>, name: string)
    requires |segments| == |pairs|
    requires forall i :: 0 <= i < |pairs| ==> (SegmentStartsWith(segments[i], prefix) <==> pairs[i].name == name)
    ensures FindSegment(segments, prefix) == FirstNamed(pairs, name)
  {
    var a := FindSegment(segments, prefix);
    var b := FirstNamed(pairs, name);
    if a.Some? && b.Some? {
      assert pairs[a.value].name == name;
      assert SegmentStartsWith(segments[b.value], prefix);
    }
  }
}

=== FILE: extraction.dfy ===
/** How an assistant reply flagged as an artifact is turned into an
    `Artifact`: the title from the first heading (the multiline pattern
    `^#\s+(.+)$`), the type by ordered keyword matching on the lower-cased
    text, and the snippet from the first line after a heading (the multiline
    pattern `^#.+\n+(.+)`).

    Each pattern is given twice: as a predicate saying when it matches at a
    position (the regular-expression semantics), and as a left-to-right search
    proved to return the match a JavaScript engine reports. */
module Extraction {
  import opened Wrappers
  import opened JsText
  import opened Model

  const SNIPPET_LENGTH := 150
  const ELLIPSIS := "..."

  /** Position of the first line terminator at or after `i`, or `|s|`. */
  function LineEnd(s: string, i: nat): (e: nat)
    requires i <= |s|
    ensures i <= e <= |s|
    ensures forall k :: i <= k < e ==> !IsLineTerminator(s[k])
    ensures e < |s| ==> IsLineTerminator(s[e])
    decreases |s| - i
  {
    if i == |s| || IsLineTerminator(s[i]) then i else LineEnd(s, i + 1)
  }

  /** The first line terminator after `i` is the one at `e`. */
  lemma LineEndIs(s: string, i: nat, e: nat)
    requires i <= e <= |s|
    requires forall k :: i <= k < e ==> !IsLineTerminator(s[k])
    requires e < |s| ==> IsLineTerminator(s[e])
    ensures LineEnd(s, i) == e
  {
  }

  /** What a greedy `.+` starting at `i` takes: the rest of that line. */
  function RestOfLine(s: string, i: nat): string
    requires i <= |s|
  {
    s[i..LineEnd(s, i)]
  }

  /** The multiline `^` holds at `p`. */
  predicate AtLineStart(s: string, p: nat)
    requires p <= |s|
  {
    p == 0 || IsLineTerminator(s[p - 1])
  }

  /** `.+` can begin at `q`: there is a character there and it does not end the line. */
  predicate LineGoesOn(s: string, q: nat) {
    q < |s| && !IsLineTerminator(s[q])
  }

  // ---------------------------------------------------------------- title

  /** `^#\s+(.+)$` matches at `p` with `\s+` taking `gap` characters. Once the
      gap is fixed, the greedy `(.+)` takes the rest of the line and `$` holds
      right after it, so the capture is `RestOfLine(s, p + 1 + gap)`. Since
      `\s` includes line terminators, the gap may cross line breaks. */
  predicate TitleMatchAt(s: string, p: nat, gap: nat) {
    && p + 1 + gap <= |s|
    && AtLineStart(s, p) && s[p] == '#' && 1 <= gap
    && (forall k :: p + 1 <= k < p + 1 + gap ==> IsWhitespace(s[k]))
    && LineGoesOn(s, p + 1 + gap)
  }

  /** A match reported by the engine: where it starts and how far its first
      quantifier reaches. */
  datatype TitleHit = TitleHit(at: nat, gap: nat)

  /** Length of the run of white space starting at `i`. */
  function SpaceRun(s: string, i: nat): (n: nat)
    requires i <= |s|
    ensures i + n <= |s|
    ensures forall k :: i <= k < i + n ==> IsWhitespace(s[k])
    ensures i + n < |s| ==> !IsWhitespace(s[i + n])
    decreases |s| - i
  {
    if i < |s| && IsWhitespace(s[i]) then 1 + SpaceRun(s, i + 1) else 0
  }

  /** A gap can never reach past the run of white space after the `#`. */
  lemma GapWithinRun(s: string, p: nat, gap: nat)
    requires TitleMatchAt(s, p, gap)
    ensures gap <= SpaceRun(s, p + 1)
  {
  }

  /** Backtracking of the greedy `\s+`: the longest gap, at most `gap`, after
      which `.+` can start. */
  function Backtrack(s: string, p: nat, gap: nat): (r: Option<nat>)
    ensures r.Some? ==> 1 <= r.value <= gap && LineGoesOn(s, p + 1 + r.value)
    ensures r.Some? ==> forall q :: p + 1 + r.value < q <= p + 1 + gap ==> !LineGoesOn(s, q)
    ensures r.None? ==> forall q :: p + 2 <= q <= p + 1 + gap ==> !LineGoesOn(s, q)
  {
    if gap == 0 then None
    else if LineGoesOn(s, p + 1 + gap) then Some(gap)
    else Backtrack(s, p, gap - 1)
  }

  /** Whether, and with which gap, the title pattern matches at `p` itself. */
  function TitleMatchHere(s: string, p: nat): (r: Option<nat>)
    requires p < |s|
    ensures r.Some? ==> TitleMatchAt(s, p, r.value)
    ensures r.Some? ==> forall g :: r.value < g ==> !TitleMatchAt(s, p, g)
    ensures r.None? ==> forall g :: !TitleMatchAt(s, p, g)
  {
    if AtLineStart(s, p) && s[p] == '#' then
      var run := SpaceRun(s, p + 1);
      var r := Backtrack(s, p, run);
      assert forall g: nat :: TitleMatchAt(s, p, g) ==> g <= run by {
        forall g: nat | TitleMatchAt(s, p, g)
          ensures g <= run
        {
          GapWithinRun(s, p, g);
        }
      }
      r
    else
      None
  }

  /** The engine's search for the title pattern from position `p` on: the
      leftmost position where it matches, and there the longest gap. */
  function TitleSearch(s: string, p: nat): (r: Option<TitleHit>)
    requires p <= |s|
    ensures r.Some? ==> p <= r.value.at && TitleMatchAt(s, r.value.at, r.value.gap)
    ensures r.Some? ==> forall q, g :: p <= q < r.value.at ==> !TitleMatchAt(s, q, g)
    ensures r.Some? ==> forall g :: r.value.gap < g ==> !TitleMatchAt(s, r.value.at, g)
    ensures r.None? ==> forall q, g :: p <= q ==> !TitleMatchAt(s, q, g)
    decreases |s| - p
  {
    if p == |s| then
      None
    else
      match TitleMatchHere(s, p)
      case Some(g) => Some(TitleHit(p, g))
      case None => TitleSearch(s, p + 1)
  }

  /** The match the engine reports: the leftmost position where the title
      pattern matches, and there the longest gap. */
  ghost predicate FirstTitleMatch(s: string, p: nat, gap: nat) {
    && TitleMatchAt(s, p, gap)
    && (forall q: nat, g: nat :: q < p ==> !TitleMatchAt(s, q, g))
    && (forall g: nat :: gap < g ==> !TitleMatchAt(s, p, g))
  }

  /** The artifact title: the capture of the title pattern, or the fixed
      fallback when no line is a heading. */
  function Title(output: string): (title: string)
    ensures title != []
    ensures forall k :: 0 <= k < |title| ==> !IsLineTerminator(title[k])
    ensures (forall q, g :: !TitleMatchAt(output, q, g)) ==> title == GENERATED_DOCUMENT
    ensures forall p: nat, g: nat :: FirstTitleMatch(output, p, g) ==> title == RestOfLine(output, p + 1 + g)
  {
    match TitleSearch(output, 0)
    case Some(h) =>
      forall p: nat, g: nat | FirstTitleMatch(output, p, g)
        ensures p == h.at && g == h.gap
      {
      }
      RestOfLine(output, h.at + 1 + h.gap)
    case None => GENERATED_DOCUMENT
  }

  /** A text that opens with `#`, white space, and a line of title text yields
      that line as its title. */
  lemma {:induction false} TitleOfLeadingHeading(output: string, space: string, t: string, rest: string)
    requires space != [] && forall k :: 0 <= k < |space| ==> IsWhitespace(space[k])
    requires t != [] && !IsWhitespace(t[0])
    requires forall k :: 0 <= k < |t| ==> !IsLineTerminator(t[k])
    requires rest == [] || IsLineTerminator(rest[0])
    requires output == "#" + space + t + rest
    ensures Title(output) == t
  {
    var gap := |space|;
    var e := 1 + gap + |t|;
    assert output[0] == '#';
    assert output[1..1 + gap] == space;
    assert output[1 + gap..e] == t;
    assert output[e..] == rest;
    assert forall k :: 1 <= k < 1 + gap ==> IsWhitespace(output[k]) by {
      forall k | 1 <= k < 1 + gap
        ensures IsWhitespace(output[k])
      {
        assert output[k] == output[1..1 + gap][k - 1];
      }
    }
    assert output[1 + gap] == t[0];
    SpaceRunIs(output, 1, gap);
    assert LineGoesOn(output, 1 + gap);
    assert Backtrack(output, 0, gap) == Some(gap);
    assert TitleMatchHere(output, 0) == Some(gap);
    assert TitleSearch(output, 0) == Some(TitleHit(0, gap));
    assert forall k :: 1 + gap <= k < e ==> !IsLineTerminator(output[k]) by {
      forall k | 1 + gap <= k < e
        ensures !IsLineTerminator(output[k])
      {
        assert output[k] == output[1 + gap..e][k - 1 - gap];
      }
    }
    assert e < |output| ==> output[e] == rest[0];
    LineEndIs(output, 1 + gap, e);
  }

  /** The white-space run starting at `i` is exactly `n` long. */
  lemma SpaceRunIs(s: string, i: nat, n: nat)
    requires i + n <= |s|
    requires forall k :: i <= k < i + n ==> IsWhitespace(s[k])
    requires i + n < |s| ==> !IsWhitespace(s[i + n])
    ensures SpaceRun(s, i) == n
    decreases n
  {
    if n > 0 {
      SpaceRunIs(s, i + 1, n - 1);
    }
  }

  // -------------------------------------------------------------- snippet

  /** `^#.+\n+(.+)` matches at `p` with `.+` taking `len` characters and `\n+`
      taking `breaks`. The greedy `(.+)` at the end takes the rest of that
      line. Only `\n` separates the heading from the snippet line: a `\r`
      there makes the pattern fail. */
  predicate SnippetMatchAt(s: string, p: nat, len: nat, breaks: nat) {
    && p + 1 + len + breaks <= |s|
    && AtLineStart(s, p) && s[p] == '#' && 1 <= len && 1 <= breaks
    && (forall k :: p + 1 <= k < p + 1 + len ==> !IsLineTerminator(s[k]))
    && (forall k :: p + 1 + len <= k < p + 1 + len + breaks ==> s[k] == '\n')
    && LineGoesOn(s, p + 1 + len + breaks)
  }

  /** A snippet match: where it starts, and what its two quantifiers take. */
  datatype SnippetHit = SnippetHit(at: nat, len: nat, breaks: nat)

  /** Length of the run of `\n` starting at `i`. */
  function NewlineRun(s: string, i: nat): (n: nat)
    requires i <= |s|
    ensures i + n <= |s|
    ensures forall k :: i <= k < i + n ==> s[k] == '\n'
    ensures i + n < |s| ==> s[i + n] != '\n'
    decreases |s| - i
  {
    if i < |s| && s[i] == '\n' then 1 + NewlineRun(s, i + 1) else 0
  }

  /** At a given position the snippet pattern can match in one way only, so
      the order in which the engine backtracks does not matter. */
  lemma SnippetMatchDetermined(s: string, p: nat, len: nat, breaks: nat)
    requires SnippetMatchAt(s, p, len, breaks)
    ensures p + 1 + len == LineEnd(s, p + 1)
    ensures breaks == NewlineRun(s, p + 1 + len)
  {
    LineEndIs(s, p + 1, p + 1 + len);
  }

  /** Whether, and how, the snippet pattern matches at `p` itself. */
  function SnippetMatchHere(s: string, p: nat): (r: Option<SnippetHit>)
    requires p < |s|
    ensures r.Some? ==> r.value.at == p && SnippetMatchAt(s, p, r.value.len, r.value.breaks)
    ensures r.Some? ==> forall l, b :: SnippetMatchAt(s, p, l, b) ==> l == r.value.len && b == r.value.breaks
    ensures r.None? ==> forall l, b :: !SnippetMatchAt(s, p, l, b)
  {
    if AtLineStart(s, p) && s[p] == '#' then
      var e := LineEnd(s, p + 1);
      var n := NewlineRun(s, e);
      assert forall l, b :: SnippetMatchAt(s, p, l, b) ==> l == e - p - 1 && b == n by {
        forall l, b | SnippetMatchAt(s, p, l, b)
          ensures l == e - p - 1 && b == n
        {
          SnippetMatchDetermined(s, p, l, b);
        }
      }
      if p + 1 < e && e < |s| && s[e] == '\n' && LineGoesOn(s, e + n) then
        Some(SnippetHit(p, e - p - 1, n))
      else
        None
    else
      None
  }

  /** The engine's search for the snippet pattern from position `p` on. */
  function SnippetSearch(s: string, p: nat): (r: Option<SnippetHit>)
    requires p <= |s|
    ensures r.Some? ==> p <= r.value.at && SnippetMatchAt(s, r.value.at, r.value.len, r.value.breaks)
    ensures r.Some? ==> forall q, l, b :: p <= q < r.value.at ==> !SnippetMatchAt(s, q, l, b)
    ensures r.Some? ==> forall l, b :: SnippetMatchAt(s, r.value.at, l, b) ==> l == r.value.len && b == r.value.breaks
    ensures r.None? ==> forall q, l, b :: p <= q ==> !SnippetMatchAt(s, q, l, b)
    decreases |s| - p
  {
    if p == |s| then
      None
    else
      match SnippetMatchHere(s, p)
      case Some(h) => Some(h)
      case None => SnippetSearch(s, p + 1)
  }

  /** The match the engine reports: the leftmost position where the snippet
      pattern matches (there it matches in one way only). */
  ghost predicate FirstSnippetMatch(s: string, p: nat, len: nat, breaks: nat) {
    && SnippetMatchAt(s, p, len, breaks)
    && (forall q: nat, l: nat, b: nat :: q < p ==> !SnippetMatchAt(s, q, l, b))
  }

  /** The artifact snippet: the first 150 characters of the line the snippet
      pattern captures, followed by an ellipsis; empty when there is no match. */
  function Snippet(output: string): (snippet: string)
    ensures |snippet| <= SNIPPET_LENGTH + |ELLIPSIS|
    ensures snippet == [] <==> SnippetSearch(output, 0).None?
    ensures snippet != [] ==> |snippet| > |ELLIPSIS| && snippet[|snippet| - |ELLIPSIS|..] == ELLIPSIS
    ensures forall k :: 0 <= k < |snippet| - |ELLIPSIS| ==> !IsLineTerminator(snippet[k])
    ensures forall p: nat, l: nat, b: nat :: FirstSnippetMatch(output, p, l, b) ==>
              snippet == Take(RestOfLine(output, p + 1 + l + b), SNIPPET_LENGTH) + ELLIPSIS
  {
    match SnippetSearch(output, 0)
    case Some(h) =>
      forall p: nat, l: nat, b: nat | FirstSnippetMatch(output, p, l, b)
        ensures p == h.at && l == h.len && b == h.breaks
      {
      }
      Take(RestOfLine(output, h.at + 1 + h.len + h.breaks), SNIPPET_LENGTH) + ELLIPSIS
    case None => ""
  }

  /** A text that opens with a heading line, one or more `\n`, and a line of
      text yields the first 150 characters of that line, with an ellipsis. */
  lemma {:induction false} SnippetOfLeadingHeading(output: string, heading: string, breaks: string, line: string, rest: string)
    requires heading != [] && forall k :: 0 <= k < |heading| ==> !IsLineTerminator(heading[k])
    requires breaks != [] && forall k :: 0 <= k < |breaks| ==> breaks[k] == '\n'
    requires line != [] && forall k :: 0 <= k < |line| ==> !IsLineTerminator(line[k])
    requires rest == [] || IsLineTerminator(rest[0])
    requires output == "#" + heading + breaks + line + rest
    ensures Snippet(output) == Take(line, SNIPPET_LENGTH) + ELLIPSIS
  {
    var e := 1 + |heading|;
    var q := e + |breaks|;
    var f := q + |line|;
    assert output[0] == '#';
    assert output[1..e] == heading;
    assert output[e..q] == breaks;
    assert output[q..f] == line;
    assert output[f..] == rest;
    assert forall k :: 1 <= k < e ==> !IsLineTerminator(output[k]) by {
      forall k | 1 <= k < e
        ensures !IsLineTerminator(output[k])
      {
        assert output[k] == output[1..e][k - 1];
      }
    }
    assert forall k :: e <= k < q ==> output[k] == '\n' by {
      forall k | e <= k < q
        ensures output[k] == '\n'
      {
        assert output[k] == output[e..q][k - e];
      }
    }
    assert forall k :: q <= k < f ==> !IsLineTerminator(output[k]) by {
      forall k | q <= k < f
        ensures !IsLineTerminator(output[k])
      {
        assert output[k] == output[q..f][k - q];
      }
    }
    assert output[q] == line[0];
    assert f < |output| ==> output[f] == rest[0];
    assert SnippetMatchAt(output, 0, |heading|, |breaks|);
    var h := SnippetSearch(output, 0).value;
    assert h == SnippetHit(0, |heading|, |breaks|);
    LineEndIs(output, q, f);
  }

  /** A typical lesson-plan reply. */
  const LESSON_PLAN_REPLY := "# " + "Lesplan" + " Titel\nEerste alinea tekst..."

  /** Its title is the heading text. */
  lemma LessonPlanExampleTitle()
    ensures Title(LESSON_PLAN_REPLY) == "Lesplan Titel"
  {
    TitleOfLeadingHeading(LESSON_PLAN_REPLY, " ", "Lesplan Titel", "\nEerste alinea tekst...");
  }

  /** Its snippet is the line after the heading, with an ellipsis. */
  lemma LessonPlanExampleSnippet()
    ensures Snippet(LESSON_PLAN_REPLY) == "Eerste alinea tekst......"
  {
    var line := "Eerste alinea tekst...";
    assert LESSON_PLAN_REPLY == "#" + " Lesplan Titel" + "\n" + line + "";
    assert Take(line, SNIPPET_LENGTH) == line;
    SnippetOfLeadingHeading(LESSON_PLAN_REPLY, " Lesplan Titel", "\n", line, "");
  }

  /** Its type is a lesson plan, found through the Dutch keyword. */
  lemma LessonPlanExampleKind()
    ensures Classify(LESSON_PLAN_REPLY) == LESSON_PLAN
  {
    var low := Lower(LESSON_PLAN_REPLY);
    assert Lower("Lesplan") == "lesplan";
    assert low == Lower("# ") + Lower("Lesplan") + Lower(" Titel\nEerste alinea tekst...");
    assert low[2..9] == "lesplan";
    assert OccursAt("lesplan", low, 2);
  }

  /** `\s+` may run over line breaks: an empty heading takes the next
      non-blank line as the title. */
  lemma TitleAcrossLineBreakExample()
    ensures Title("#\n\n  Inleiding\nTekst") == "Inleiding"
  {
    TitleOfLeadingHeading("#\n\n  Inleiding\nTekst", "\n\n  ", "Inleiding", "\nTekst");
  }

  // ------------------------------------------------------- classification

  /** The artifact type: the first keyword group found in the lower-cased
      text decides, in the order lesson plan, workshop or training,
      implementation plan; anything else is a plain document. */
  function Classify(output: string): (kind: string)
    ensures var low := Lower(output);
      var lesson := Occurs("lesplan", low) || Occurs("lesson", low);
      var workshop := Occurs("workshop", low) || Occurs("training", low);
      var implementation := Occurs("implementatie", low) || Occurs("implementation", low);
      && (kind == LESSON_PLAN <==> lesson)
      && (kind == TRAINING_WORKSHOP <==> !lesson && workshop)
      && (kind == IMPLEMENTATION_PLAN <==> !lesson && !workshop && implementation)
      && (kind == DOCUMENT <==> !lesson && !workshop && !implementation)
  {
    var low := Lower(output);
    if Contains(low, "lesplan") || Contains(low, "lesson") then LESSON_PLAN
    else if Contains(low, "workshop") || Contains(low, "training") then TRAINING_WORKSHOP
    else if Contains(low, "implementatie") || Contains(low, "implementation") then IMPLEMENTATION_PLAN
    else DOCUMENT
  }

  /** Two characters that differ at most in ASCII letter case. */
  predicate SameLetterIgnoringCase(c: char, d: char) {
    c == d || ('A' <= c <= 'Z' && d as int == c as int + 32) || ('A' <= d <= 'Z' && c as int == d as int + 32)
  }

  /** The classification does not depend on letter case. */
  lemma ClassifyIgnoresCase(s: string, t: string)
    requires |s| == |t|
    requires forall i :: 0 <= i < |s| ==> SameLetterIgnoringCase(s[i], t[i])
    ensures Classify(s) == Classify(t)
  {
    forall i | 0 <= i < |s|
      ensures LowerChar(s[i]) == LowerChar(t[i])
    {
    }
    LowerAgree(s, t);
  }

  /** Texts that agree character by character after lower-casing agree as a
      whole. */
  lemma LowerAgree(s: string, t: string)
    requires |s| == |t|
    requires forall i :: 0 <= i < |s| ==> LowerChar(s[i]) == LowerChar(t[i])
    ensures Lower(s) == Lower(t)
  {
  }

  /** The artifact extracted from a flagged reply: the whole reply is its
      content, with title, type and snippet derived from it. */
  function ExtractArtifact(output: string): (a: Artifact)
    ensures a.content == output
    ensures a.title == Title(output) && a.kind == Classify(output) && a.snippet == Snippet(output)
    ensures a.kind in {LESSON_PLAN, TRAINING_WORKSHOP, IMPLEMENTATION_PLAN, DOCUMENT}
  {
    Artifact(Title(output), Classify(output), output, Snippet(output))
  }
}

=== FILE: filenames.dfy ===
/** Download file names for an artifact: every character of the title that is
    not an ASCII letter or digit becomes `_` (`title.replace(/[^a-z0-9]/gi, '_')`;
    without the `u` flag, case-insensitive matching only equates ASCII letters
    here, so exactly `A`-`Z`, `a`-`z` and `0`-`9` are kept). */
module Filenames {

  predicate IsAsciiAlphanumeric(c: char) {
    'a' <= c <= 'z' || 'A' <= c <= 'Z' || '0' <= c <= '9'
  }

  /** Characters a sanitised name may contain. */
  predicate IsSafe(c: char) {
    IsAsciiAlphanumeric(c) || c == '_'
  }

  /** The title with every character outside `[A-Za-z0-9]` replaced by `_`,
      scanning from the left. */
  function Sanitize(title: string): (name: string)
    ensures |name| == |title|
    ensures forall i :: 0 <= i < |title| && IsAsciiAlphanumeric(title[i]) ==> name[i] == title[i]
    ensures forall i :: 0 <= i < |title| && !IsAsciiAlphanumeric(title[i]) ==> name[i] == '_'
  {
    if title == [] then []
    else
      var c := if IsAsciiAlphanumeric(title[0]) then title[0] else '_';
      [c] + Sanitize(title[1..])
  }

  /** A sanitised name only holds safe characters. */
  lemma SanitizeIsSafe(title: string)
    ensures forall i :: 0 <= i < |Sanitize(title)| ==> IsSafe(Sanitize(title)[i])
  {
  }

  /** Sanitising twice changes nothing more, and a name that is already safe
      is kept as it is. */
  lemma SanitizeIdempotent(title: string)
    ensures Sanitize(Sanitize(title)) == Sanitize(title)
    ensures (forall i :: 0 <= i < |title| ==> IsSafe(title[i])) ==> Sanitize(title) == title
  {
  }

  /** Name of the plain-text download. */
  function TextFileName(title: string): (name: string)
    ensures |name| == |title| + 4 && name[|title|..] == ".txt"
    ensures name[..|title|] == Sanitize(title)
    ensures forall i :: 0 <= i < |title| && IsAsciiAlphanumeric(title[i]) ==> name[i] == title[i]
    ensures forall i :: 0 <= i < |title| ==> IsSafe(name[i])
  {
    SanitizeIsSafe(title);
    Sanitize(title) + ".txt"
  }

  /** Name of the Word download. */
  function WordFileName(title: string): (name: string)
    ensures |name| == |title| + 5 && name[|title|..] == ".docx"
    ensures name[..|title|] == Sanitize(title)
    ensures forall i :: 0 <= i < |title| && IsAsciiAlphanumeric(title[i]) ==> name[i] == title[i]
    ensures forall i :: 0 <= i < |title| ==> IsSafe(name[i])
  {
    SanitizeIsSafe(title);
    Sanitize(title) + ".docx"
  }

  /** The two downloads of one artifact share their stem, and two titles give
      the same file names exactly when they sanitise alike. */
  lemma FileNamesShareStem(a: string, b: string)
    ensures TextFileName(a)[..|a|] == WordFileName(a)[..|a|]
    ensures TextFileName(a) == TextFileName(b) <==> Sanitize(a) == Sanitize(b)
    ensures WordFileName(a) == WordFileName(b) <==> Sanitize(a) == Sanitize(b)
  {
    if TextFileName(a) == TextFileName(b) {
      assert |a| == |b|;
    }
    if WordFileName(a) == WordFileName(b) {
      assert |a| == |b|;
    }
  }
}

=== FILE: js_text.dfy ===
/** The pieces of JavaScript string behaviour the client relies on: the
    line-terminator and white-space classes used by regular expressions and
    `trim()`, `substring(0, n)`, `toLowerCase()` as far as ASCII keywords can
    observe it, and `includes`.

    A `string` here is a sequence of Unicode scalar values; JavaScript counts
    UTF-16 code units, and the two agree on every text without astral
    characters. */
module JsText {

  /** LineTerminator of ECMA-262 (section 12.3): `.` never matches one, and the
      multiline `^` and `$` anchors match right after and right before one. */
  predicate IsLineTerminator(c: char) {
    c == '\n' || c == '\r' || c == '\U{2028}' || c == '\U{2029}'
  }

  /** WhiteSpace or LineTerminator of ECMA-262 (sections 12.2 and 12.3): the
      class `\s` of regular expressions and what `String.prototype.trim`
      removes. */
  predicate IsWhitespace(c: char) {
    || IsLineTerminator(c)
    || c == '\t' || c == '\U{000B}' || c == '\U{000C}' || c == ' '
    || c == '\U{00A0}' || c == '\U{1680}' || ('\U{2000}' <= c <= '\U{200A}')
    || c == '\U{202F}' || c == '\U{205F}' || c == '\U{3000}' || c == '\U{FEFF}'
  }

  /** Drops the leading white space. */
  function TrimStart(s: string): (r: string)
    ensures |r| <= |s|
    ensures forall k :: 0 <= k < |s| - |r| ==> IsWhitespace(s[k])
    ensures r == [] || !IsWhitespace(r[0])
  {
    if s != [] && IsWhitespace(s[0]) then TrimStart(s[1..]) else s
  }

  /** Drops the trailing white space. */
  function TrimEnd(s: string): (r: string)
    ensures |r| <= |s|
    ensures forall k :: |r| <= k < |s| ==> IsWhitespace(s[k])
    ensures r == [] || !IsWhitespace(r[|r| - 1])
  {
    if s != [] && IsWhitespace(s[|s| - 1]) then TrimEnd(s[..|s| - 1]) else s
  }

  /** What `TrimStart` keeps is a suffix of its input. */
  lemma {:induction false} TrimStartIsSuffix(s: string)
    ensures TrimStart(s) == s[|s| - |TrimStart(s)|..]
  {
    if s != [] && IsWhitespace(s[0]) {
      TrimStartIsSuffix(s[1..]);
    }
  }

  /** What `TrimEnd` keeps is a prefix of its input. */
  lemma {:induction false} TrimEndIsPrefix(s: string)
    ensures TrimEnd(s) == s[..|TrimEnd(s)|]
  {
    if s != [] && IsWhitespace(s[|s| - 1]) {
      TrimEndIsPrefix(s[..|s| - 1]);
    }
  }

  /** `String.prototype.trim`: white space cut from both ends. */
  function Trim(s: string): (r: string)
    ensures |r| <= |s|
    ensures r == [] || (!IsWhitespace(r[0]) && !IsWhitespace(r[|r| - 1]))
  {
    var t := TrimStart(s);
    TrimEndIsPrefix(t);
    TrimEnd(t)
  }

  /** `r` is the slice of `s` starting at `a`, and everything of `s` before and
      after that slice is white space. */
  ghost predicate CutsWhitespaceAround(s: string, a: nat, r: string) {
    && a + |r| <= |s| && r == s[a..a + |r|]
    && (forall k :: 0 <= k < a ==> IsWhitespace(s[k]))
    && (forall k :: a + |r| <= k < |s| ==> IsWhitespace(s[k]))
  }

  /** The trimmed text is a slice of the original, and only white space was
      cut off on either side. */
  lemma TrimCutsOnlyWhitespace(s: string)
    ensures exists a :: CutsWhitespaceAround(s, a, Trim(s))
  {
    var t := TrimStart(s);
    var r := TrimEnd(t);
    var a := |s| - |t|;
    TrimStartIsSuffix(s);
    TrimEndIsPrefix(t);
    assert r == s[a..a + |r|];
    assert forall k :: a + |r| <= k < |s| ==> s[k] == t[k - a];
    assert r == Trim(s);
    assert CutsWhitespaceAround(s, a, r);
  }

  /** A text with no white space at either end is its own trim. */
  lemma TrimOfTrimmed(s: string)
    requires s == [] || (!IsWhitespace(s[0]) && !IsWhitespace(s[|s| - 1]))
    ensures Trim(s) == s
  {
  }

  /** `s.substring(0, n)`: the first `n` characters, or all of `s` when it is
      shorter. */
  function Take(s: string, n: nat): (r: string)
    ensures |r| <= n && r <= s
    ensures |r| == n || r == s
  {
    if |s| <= n then s else s[..n]
  }

  /** Lower-casing of one character as `toLowerCase` does it whenever the
      result is an ASCII letter: `A`-`Z`, and KELVIN SIGN U+212A, which
      lower-cases to `k`. Every other character is kept; its real lower case
      is never an ASCII letter (U+0130 lower-cases to `i` followed by U+0307,
      which cannot complete any ASCII keyword). */
  function LowerChar(c: char): (d: char)
    ensures 'a' <= d <= 'z' ==> ('a' <= c <= 'z' || 'A' <= c <= 'Z' || c == '\U{212A}')
    ensures !('A' <= d <= 'Z')
    ensures c == '\U{212A}' ==> d == 'k'
    ensures c != '\U{212A}' ==> c == d || ('A' <= c <= 'Z' && d as int == c as int + 32)
  {
    if 'A' <= c <= 'Z' then (c as int + 32) as char
    else if c == '\U{212A}' then 'k'
    else c
  }

  /** `toLowerCase`, character by character. */
  function Lower(s: string): (r: string)
    ensures |r| == |s|
    ensures forall i :: 0 <= i < |s| ==> r[i] == LowerChar(s[i])
  {
    seq(|s|, i requires 0 <= i < |s| => LowerChar(s[i]))
  }

  /** Lower-casing twice changes nothing more. */
  lemma LowerIdempotent(s: string)
    ensures Lower(Lower(s)) == Lower(s)
  {
  }

  /** `w` occurs in `s` as a contiguous slice. */
  ghost predicate Occurs(w: string, s: string) {
    exists i :: OccursAt(w, s, i)
  }

  /** `w` occurs in `s` starting at position `i`. */
  ghost predicate OccursAt(w: string, s: string, i: int) {
    0 <= i && i + |w| <= |s| && s[i..i + |w|] == w
  }

  /** `s.includes(w)`, by scanning from the left. */
  function Contains(s: string, w: string): (b: bool)
    ensures b <==> Occurs(w, s)
  {
    if |s| < |w| then
      assert !Occurs(w, s);
      false
    else if s[..|w|] == w then
      assert OccursAt(w, s, 0);
      true
    else
      var b := Contains(s[1..], w);
      if b then
        assert Occurs(w, s) by {
          var i :| OccursAt(w, s[1..], i);
          assert s[i + 1..i + 1 + |w|] == s[1..][i..i + |w|];
          assert OccursAt(w, s, i + 1);
        }
        true
      else
        assert !Occurs(w, s) by {
          forall i | 0 <= i && i + |w| <= |s|
            ensures !OccursAt(w, s, i)
          {
            if i > 0 {
              assert !OccursAt(w, s[1..], i - 1);
              assert s[1..][i - 1..i - 1 + |w|] == s[i..i + |w|];
            }
          }
        }
        false
  }
}

=== FILE: model.dfy ===
/** The client's entities and its single state record. Timestamps and ids are
    opaque strings: the client only stores and compares them. */
module Model {
  import opened Wrappers

  /** An ISO-8601 timestamp, as `new Date().toISOString()` or the server writes it. */
  type Stamp = string

  // Fixed Dutch interface strings that end up in the state.
  const NEW_CONVERSATION := "Nieuw gesprek"
  const ARTIFACT_CREATED := "Ik heb dit voor je gemaakt. Klik om het volledige document te bekijken:"
  const GENERATED_DOCUMENT := "Gegenereerd document"
  const LESSON_PLAN := "Lesplan"
  const TRAINING_WORKSHOP := "Trainingsworkshop"
  const IMPLEMENTATION_PLAN := "Implementatieplan"
  const DOCUMENT := "Document"
  const ERROR_MESSAGE := "Sorry, er is een fout opgetreden. Probeer het opnieuw."
  const SESSION_EXPIRED := "Je sessie is verlopen. Log opnieuw in."

  const USER_ROLE := "user"
  const ASSISTANT_ROLE := "assistant"

  /** Conversation titles derived from text are cut to this many characters. */
  const TITLE_LENGTH := 40

  /** The profile shown in the user panel. */
  datatype User = User(name: string, role: string, tier: string)

  /** A generated document; `kind` is the classification the client shows as its type. */
  datatype Artifact = Artifact(title: string, kind: string, content: string, snippet: string)

  /** One entry of the message buffer. */
  datatype Message = Message(role: string, text: string, timestamp: Option<Stamp>, artifact: Option<Artifact>)

  /** One entry of the conversation list. A conversation created locally has no
      update time and no message count; one loaded from the server has both
      fields as the server sent them. */
  datatype Conversation = Conversation(
    id: string,
    title: string,
    createdAt: Option<Stamp>,
    updatedAt: Option<Stamp>,
    messageCount: Option<int>)

  /** What reading the credential cookie yields: no cookie (or an empty one), a
      value that does not parse as JSON (or parses to `null`), or a parsed
      record whose `token` and `user` fields may be missing. */
  datatype StoredAuth = NoCookie | Corrupt | Stored(token: Option<string>, user: Option<User>)

  /** The client's in-memory state, together with the credential cookie it
      reads and deletes. The loading and syncing flags are not part of it. */
  datatype AppState = AppState(
    sessionId: string,
    conversations: seq<Conversation>,
    currentConversation: Option<string>,
    messages: seq<Message>,
    user: Option<User>,
    authToken: Option<string>,
    tokenExpiry: Option<Stamp>,
    conversationsLoaded: bool,
    cookie: StoredAuth)

  /** JavaScript truthiness of a string that may be `null`: present and non-empty. */
  predicate Truthy(o: Option<string>) {
    o.Some? && o.value != ""
  }

  /** `conversations.find(c => c.id === id)`, as the index of the first match. */
  function FindConversation(cs: seq<Conversation>, id: string): (r: Option<nat>)
    ensures r.Some? ==> r.value < |cs| && cs[r.value].id == id
    ensures r.Some? ==> forall k :: 0 <= k < r.value ==> cs[k].id != id
    ensures r.None? ==> forall k :: 0 <= k < |cs| ==> cs[k].id != id
  {
    if cs == [] then None
    else if cs[0].id == id then Some(0)
    else match FindConversation(cs[1..], id)
      case Some(i) => Some(i + 1)
      case None => None
  }
}

=== FILE: pipeline.dfy ===
/** The message pipeline: appending a message to the buffer (creating the
    conversation on the first user message and saving every message to the
    server), turning an assistant reply into a message, and sending the
    user's input with every outcome of the chat request. Clock readings and
    the server's answers are inputs. */
module Pipeline {
  import opened Wrappers
  import opened JsText
  import opened Model
  import opened Auth
  import opened Records
  import opened Extraction

  /** The save request `addMessage` sends for a message. */
  datatype SaveRequest = SaveRequest(conversationId: string, record: ServerMessage)

  /** The state after appending a message, whether a create request went out,
      and the save request, if any. */
  datatype Added = Added(state: AppState, createRequested: bool, saved: Option<SaveRequest>)

  /** Token, user and cookie of two states agree. */
  predicate SameCredentials(a: AppState, b: AppState) {
    a.authToken == b.authToken && a.user == b.user && a.cookie == b.cookie
  }

  /** The title of a conversation created from its first message: the first
      forty characters of the text, or the placeholder for an empty text. */
  function ConversationTitle(text: string): (title: string)
    ensures title != [] && |title| <= TITLE_LENGTH
    ensures text == [] ==> title == NEW_CONVERSATION
    ensures text != [] ==> title <= text && (|title| == TITLE_LENGTH || title == text)
  {
    var t := Take(text, TITLE_LENGTH);
    if t == [] then NEW_CONVERSATION else t
  }

  /** The lazy creation in `addMessage` once the first message, `pushed`,
      is in the buffer: after a positive authentication check the server's
      conversation id (`created`) is adopted as the session id; in every
      case the new conversation goes to the front of the list and becomes
      current. */
  function OpenConversation(pushed: AppState, title: string, now: Stamp, created: Option<string>): (r: Added)
    ensures var id := if IsAuthenticated(pushed).ok && created.Some? then created.value else pushed.sessionId;
            && r.state.conversations == [Conversation(id, title, Some(now), None, None)] + pushed.conversations
            && r.state.currentConversation == Some(id)
            && r.state.sessionId == id
    ensures r.createRequested == IsAuthenticated(pushed).ok && r.saved.None?
    ensures r.state.(conversations := pushed.conversations, currentConversation := pushed.currentConversation, sessionId := pushed.sessionId)
            == IsAuthenticated(pushed).state
  {
    var auth := IsAuthenticated(pushed);
    var id := if auth.ok && created.Some? then created.value else pushed.sessionId;
    var conv := Conversation(id, title, Some(now), None, None);
    Added(auth.state.(sessionId := id, conversations := [conv] + pushed.conversations, currentConversation := Some(id)), auth.ok, None)
  }

  /** `addMessage(message)`, with `now` the time stamped on it and `created`
      the id the server gives a new conversation. The message always lands at
      the end of the buffer; a conversation is created only for a user message
      into an empty buffer; the message is saved when there is a current
      conversation and the authentication check passes. */
  function AddMessage(st: AppState, m: Message, now: Stamp, created: Option<string>): (r: Added)
    ensures r.state.messages == st.messages + [m.(timestamp := Some(now))]
    ensures var creates := st.messages == [] && m.role == USER_ROLE;
            && (creates ==>
                  && |r.state.conversations| == |st.conversations| + 1
                  && r.state.conversations[1..] == st.conversations
                  && r.state.conversations[0].title == ConversationTitle(m.text)
                  && r.state.conversations[0].createdAt == Some(now)
                  && r.state.conversations[0].id == (if IsAuthenticated(st).ok && created.Some? then created.value else st.sessionId)
                  && r.state.currentConversation == Some(r.state.conversations[0].id)
                  && r.state.sessionId == r.state.conversations[0].id)
            && (!creates ==>
                  && r.state.conversations == st.conversations
                  && r.state.currentConversation == st.currentConversation
                  && r.state.sessionId == st.sessionId)
            && (r.createRequested <==> creates && IsAuthenticated(st).ok)
            && SameCredentials(r.state, if creates || Truthy(st.currentConversation) then IsAuthenticated(st).state else st)
    ensures r.state.tokenExpiry == st.tokenExpiry && r.state.conversationsLoaded == st.conversationsLoaded
    ensures r.saved.Some? <==> Truthy(r.state.currentConversation) && IsAuthenticated(st).ok
    ensures r.saved.Some? ==> r.saved.value.conversationId == r.state.currentConversation.value
    ensures r.saved.Some? && (m.artifact.Some? ==> m.text == ARTIFACT_CREATED) ==>
              ToMessage(r.saved.value.record) == m.(timestamp := None)
    ensures r.saved.Some? ==> r.saved.value.record == ToServerRecord(m.(timestamp := Some(now)), None)
    ensures st.messages == [] && m.role == USER_ROLE ==>
              r.state.conversations[0] == Conversation(r.state.sessionId, ConversationTitle(m.text), Some(now), None, None)
  {
    var msg := m.(timestamp := Some(now));
    var pushed := st.(messages := st.messages + [msg]);
    var opening :=
      if |pushed.messages| == 1 && m.role == USER_ROLE then OpenConversation(pushed, ConversationTitle(m.text), now, created)
      else Added(pushed, false, None);
    if Truthy(opening.state.currentConversation) then
      var auth := IsAuthenticated(opening.state);
      var save := SaveRequest(opening.state.currentConversation.value, ToServerRecord(msg, None));
      Added(auth.state, opening.createRequested, if auth.ok then Some(save) else None)
    else opening
  }

  /** An assistant message never creates a conversation and never touches
      the list or the session id. */
  lemma AssistantMessageKeepsList(st: AppState, text: string, artifact: Option<Artifact>, now: Stamp, created: Option<string>)
    ensures var r := AddMessage(st, Message(ASSISTANT_ROLE, text, None, artifact), now, created).state;
            r.conversations == st.conversations && r.currentConversation == st.currentConversation
            && r.sessionId == st.sessionId && !AddMessage(st, Message(ASSISTANT_ROLE, text, None, artifact), now, created).createRequested
  {
  }

  /** A second user message never creates a conversation: after the first
      one the buffer is not empty. */
  lemma OnlyFirstMessageCreates(st: AppState, first: Message, second: Message, t1: Stamp, t2: Stamp, c1: Option<string>, c2: Option<string>)
    ensures var s := AddMessage(st, first, t1, c1).state;
            var r := AddMessage(s, second, t2, c2);
            !r.createRequested && r.state.conversations == s.conversations
  {
  }

  /** The index of the current conversation in the list, if any. */
  function CurrentIndex(st: AppState): (r: Option<nat>)
    ensures r.Some? ==> r.value < |st.conversations| && st.currentConversation == Some(st.conversations[r.value].id)
    ensures r.Some? ==> forall k :: 0 <= k < r.value ==> st.currentConversation != Some(st.conversations[k].id)
    ensures r.None? ==> forall k :: 0 <= k < |st.conversations| ==> st.currentConversation != Some(st.conversations[k].id)
  {
    if st.currentConversation.None? then None else FindConversation(st.conversations, st.currentConversation.value)
  }

  /** The title update after an artifact: the current conversation (its first
      entry in the list) takes the first forty characters of the artifact's
      title, but only while it still carries the placeholder. */
  function RetitleCurrent(st: AppState, title: string): (r: AppState)
    ensures r.(conversations := st.conversations) == st
    ensures |r.conversations| == |st.conversations|
    ensures forall k :: 0 <= k < |st.conversations| && r.conversations[k] != st.conversations[k] ==>
              && CurrentIndex(st) == Some(k)
              && st.conversations[k].title == NEW_CONVERSATION
              && r.conversations[k] == st.conversations[k].(title := Take(title, TITLE_LENGTH))
    ensures CurrentIndex(st).Some? && st.conversations[CurrentIndex(st).value].title == NEW_CONVERSATION ==>
              r.conversations[CurrentIndex(st).value].title == Take(title, TITLE_LENGTH)
  {
    if |st.conversations| > 0 then
      match CurrentIndex(st)
      case Some(i) =>
        var conv := st.conversations[i];
        if conv.title == NEW_CONVERSATION then st.(conversations := st.conversations[i := conv.(title := Take(title, TITLE_LENGTH))])
        else st
      case None => st
    else st
  }

  /** Retitling twice with the same title is retitling once. */
  lemma RetitleIdempotent(st: AppState, title: string)
    ensures RetitleCurrent(RetitleCurrent(st, title), title) == RetitleCurrent(st, title)
  {
    var r := RetitleCurrent(st, title);
    assert r.currentConversation == st.currentConversation;
    match CurrentIndex(st)
    case None =>
    case Some(i) =>
      assert forall k :: 0 <= k < |st.conversations| ==> r.conversations[k].id == st.conversations[k].id;
      assert CurrentIndex(r) == Some(i);
  }

  /** The parsed body of a chat answer: the three fields the reply text may
      come from, the artifact flag (`isArtifact === true`), whether `error`
      is set, `authRequired === true`, and the user profile. */
  datatype Reply = Reply(
    output: Option<string>,
    response: Option<string>,
    message: Option<string>,
    isArtifact: bool,
    error: bool,
    authRequired: bool,
    user: Option<User>)

  /** `data.output || data.response || data.message || ''`. */
  function ReplyText(d: Reply): (text: string)
    ensures Truthy(d.output) ==> text == d.output.value
    ensures !Truthy(d.output) && Truthy(d.response) ==> text == d.response.value
    ensures !Truthy(d.output) && !Truthy(d.response) && Truthy(d.message) ==> text == d.message.value
    ensures text == [] <==> !Truthy(d.output) && !Truthy(d.response) && !Truthy(d.message)
  {
    if Truthy(d.output) then d.output.value
    else if Truthy(d.response) then d.response.value
    else if Truthy(d.message) then d.message.value
    else ""
  }

  /** `handleResponse(data)`: an artifact reply becomes the placeholder
      message carrying the extracted artifact and may retitle the current
      conversation; any other reply becomes a message with its text. A user
      profile in the reply replaces the one in the state. */
  function HandleResponse(st: AppState, d: Reply, now: Stamp): (r: AppState)
    ensures |r.messages| == |st.messages| + 1 && r.messages[..|st.messages|] == st.messages
    ensures var last := r.messages[|st.messages|];
            && last.role == ASSISTANT_ROLE && last.timestamp == Some(now)
            && (d.isArtifact ==> last.text == ARTIFACT_CREATED && last.artifact == Some(ExtractArtifact(ReplyText(d))))
            && (!d.isArtifact ==> last.text == ReplyText(d) && last.artifact.None?)
    ensures d.isArtifact ==> r.conversations == RetitleCurrent(st, Title(ReplyText(d))).conversations
    ensures !d.isArtifact ==> r.conversations == st.conversations
    ensures r.currentConversation == st.currentConversation && r.sessionId == st.sessionId
    ensures r.user == if d.user.Some? then d.user else (if Truthy(st.currentConversation) then IsAuthenticated(st).state.user else st.user)
    ensures r.authToken == (if Truthy(st.currentConversation) then IsAuthenticated(st).state.authToken else st.authToken)
    ensures r.cookie == (if Truthy(st.currentConversation) then IsAuthenticated(st).state.cookie else st.cookie)
    ensures r.tokenExpiry == st.tokenExpiry && r.conversationsLoaded == st.conversationsLoaded
  {
    var text := ReplyText(d);
    var after :=
      if d.isArtifact then
        var a := ExtractArtifact(text);
        var added := AddMessage(st, Message(ASSISTANT_ROLE, ARTIFACT_CREATED, None, Some(a)), now, None).state;
        RetitleCurrent(added, a.title)
      else
        AddMessage(st, Message(ASSISTANT_ROLE, text, None, None), now, None).state;
    if d.user.Some? then after.(user := d.user) else after
  }

  /** The message a reply becomes survives the save: stored and loaded back
      it is itself, apart from the server's timestamp, with its artifact. */
  lemma HandledReplyLoadsBack(st: AppState, d: Reply, now: Stamp, storedAt: Option<Stamp>)
    ensures var m := HandleResponse(st, d, now).messages[|st.messages|];
            ToMessage(ToServerRecord(m, storedAt)) == m.(timestamp := storedAt)
  {
    var m := HandleResponse(st, d, now).messages[|st.messages|];
    SavedMessageLoadsBack(m, storedAt);
  }

  /** The answer to the chat request: no answer at all (the request failed),
      or a status with a body that did or did not parse. */
  datatype Body = Unparseable | Parsed(reply: Reply)
  datatype ChatOutcome = NetworkFailure | Answered(status: int, body: Body)

  /** `response.ok`. */
  predicate IsSuccess(status: int) {
    200 <= status < 300
  }

  /** The two answers that end the session: a 401, or a parsed reply with an
      error that asks for authentication. */
  predicate ForcesLogout(o: ChatOutcome)
    ensures ForcesLogout(o) ==> o.Answered?
    ensures o.Answered? && o.status == 401 ==> ForcesLogout(o)
  {
    o.Answered? &&
    (o.status == 401 || (IsSuccess(o.status) && o.body.Parsed? && o.body.reply.error && o.body.reply.authRequired))
  }

  /** The answers that end in the generic error message: no answer, a failure
      status other than 401, or a body that does not parse. */
  predicate Fails(o: ChatOutcome)
    ensures Fails(o) ==> !ForcesLogout(o)
    ensures !Fails(o) && !ForcesLogout(o) ==> o.Answered? && IsSuccess(o.status) && o.body.Parsed?
    ensures o.NetworkFailure? ==> Fails(o)
  {
    o.NetworkFailure? || (o.status != 401 && !IsSuccess(o.status)) || (IsSuccess(o.status) && o.body.Unparseable?)
  }

  /** The body of the chat request. */
  datatype ChatRequest = ChatRequest(chatInput: string, sessionId: string, token: Option<string>)

  /** The state after a send and the chat request it made, if any. */
  datatype Sent = Sent(state: AppState, request: Option<ChatRequest>)

  /** An assistant message with a fixed text. */
  function Say(st: AppState, text: string, now: Stamp): (r: AppState)
    ensures r.messages == st.messages + [Message(ASSISTANT_ROLE, text, Some(now), None)]
    ensures r.conversations == st.conversations && r.currentConversation == st.currentConversation
    ensures r.sessionId == st.sessionId && r.tokenExpiry == st.tokenExpiry
    ensures r.conversationsLoaded == st.conversationsLoaded
    ensures SameCredentials(r, if Truthy(st.currentConversation) then IsAuthenticated(st).state else st)
  {
    AddMessage(st, Message(ASSISTANT_ROLE, text, None, None), now, None).state
  }

  /** What `sendMessage` does with the answer once the user message is in
      the buffer. */
  function Answer(st: AppState, outcome: ChatOutcome, now: Stamp): (r: AppState)
    ensures |r.messages| == |st.messages| + 1 && r.messages == st.messages + [r.messages[|st.messages|]]
    ensures r.messages[|st.messages|].role == ASSISTANT_ROLE
    ensures ForcesLogout(outcome) ==>
              && r.messages[|st.messages|].text == SESSION_EXPIRED
              && r.authToken.None? && r.tokenExpiry.None? && r.cookie == NoCookie && r.user == st.user
    ensures Fails(outcome) ==> r.messages[|st.messages|].text == ERROR_MESSAGE
    ensures !ForcesLogout(outcome) && !Fails(outcome) ==>
              r.messages[|st.messages|].text == (if outcome.body.reply.isArtifact then ARTIFACT_CREATED else ReplyText(outcome.body.reply))
    ensures !ForcesLogout(outcome) && Truthy(st.authToken) ==> r.authToken == st.authToken
    ensures r.currentConversation == st.currentConversation && r.sessionId == st.sessionId
    ensures ForcesLogout(outcome) || Fails(outcome) ==> r.conversations == st.conversations
    ensures Fails(outcome) ==>
              && r.tokenExpiry == st.tokenExpiry
              && SameCredentials(r, if Truthy(st.currentConversation) then IsAuthenticated(st).state else st)
    ensures !ForcesLogout(outcome) && !Fails(outcome) ==>
              r.conversations == (if outcome.body.reply.isArtifact then RetitleCurrent(st, Title(ReplyText(outcome.body.reply))).conversations
                                  else st.conversations)
    ensures ForcesLogout(outcome) ==> r.messages[|st.messages|] == Message(ASSISTANT_ROLE, SESSION_EXPIRED, Some(now), None)
    ensures Fails(outcome) ==> r.messages[|st.messages|] == Message(ASSISTANT_ROLE, ERROR_MESSAGE, Some(now), None)
    ensures !ForcesLogout(outcome) && !Fails(outcome) ==> r == HandleResponse(st, outcome.body.reply, now)
    ensures !ForcesLogout(outcome) ==> r.tokenExpiry == st.tokenExpiry
    ensures r.conversationsLoaded == st.conversationsLoaded
  {
    if ForcesLogout(outcome) then Say(ExpireSession(st), SESSION_EXPIRED, now)
    else if Fails(outcome) then Say(st, ERROR_MESSAGE, now)
    else HandleResponse(st, outcome.body.reply, now)
  }

  /** Every outcome falls in exactly one of the three branches. */
  lemma OutcomeBranches(o: ChatOutcome)
    ensures !(ForcesLogout(o) && Fails(o))
    ensures ForcesLogout(o) || Fails(o) || (o.Answered? && IsSuccess(o.status) && o.body.Parsed?)
  {
  }

  /** The user message of an authenticated send: it lands in the buffer and,
      as the first message, opens the conversation under the server's id. */
  function Ask(st: AppState, message: string, sentAt: Stamp, created: Option<string>): (r: AppState)
    requires Truthy(st.authToken)
    ensures r.messages == st.messages + [Message(USER_ROLE, message, Some(sentAt), None)]
    ensures r.sessionId == (if st.messages == [] && created.Some? then created.value else st.sessionId)
    ensures SameCredentials(r, st) && r.tokenExpiry == st.tokenExpiry
    ensures r.conversationsLoaded == st.conversationsLoaded
    ensures st.messages == [] ==>
              && |r.conversations| == |st.conversations| + 1
              && r.conversations[1..] == st.conversations
              && r.conversations[0].id == r.sessionId
              && r.conversations[0].title == ConversationTitle(message)
              && r.conversations[0].createdAt == Some(sentAt)
              && r.conversations[0] == Conversation(r.sessionId, ConversationTitle(message), Some(sentAt), None, None)
              && r.currentConversation == Some(r.sessionId)
    ensures st.messages != [] ==> r.conversations == st.conversations && r.currentConversation == st.currentConversation
  {
    AddMessage(st, Message(USER_ROLE, message, None, None), sentAt, created).state
  }

  /** The part of an authenticated send after the check: the user message,
      the chat request built from the state it leaves, and the answer. */
  function Converse(st: AppState, message: string, sentAt: Stamp, answeredAt: Stamp, created: Option<string>, outcome: ChatOutcome): (r: Sent)
    requires Truthy(st.authToken)
    ensures r.request == Some(ChatRequest(message, if st.messages == [] && created.Some? then created.value else st.sessionId, st.authToken))
    ensures |r.state.messages| == |st.messages| + 2
    ensures var answer := r.state.messages[|st.messages| + 1];
            && r.state.messages == st.messages + [Message(USER_ROLE, message, Some(sentAt), None), answer]
            && answer.role == ASSISTANT_ROLE
            && (ForcesLogout(outcome) ==> answer.text == SESSION_EXPIRED)
            && (Fails(outcome) ==> answer.text == ERROR_MESSAGE)
            && (!ForcesLogout(outcome) && !Fails(outcome) ==>
                  answer.text == (if outcome.body.reply.isArtifact then ARTIFACT_CREATED else ReplyText(outcome.body.reply)))
            && answer.timestamp == Some(answeredAt)
            && (ForcesLogout(outcome) || Fails(outcome) ==> answer.artifact.None?)
            && (!ForcesLogout(outcome) && !Fails(outcome) ==>
                  answer.artifact == (if outcome.body.reply.isArtifact then Some(ExtractArtifact(ReplyText(outcome.body.reply))) else None))
    ensures ForcesLogout(outcome) ==>
              r.state.authToken.None? && r.state.tokenExpiry.None? && r.state.cookie == NoCookie && r.state.user == st.user
    ensures !ForcesLogout(outcome) ==> r.state.tokenExpiry == st.tokenExpiry
    ensures r.state.conversationsLoaded == st.conversationsLoaded
    ensures !ForcesLogout(outcome) ==> r.state.authToken == st.authToken
    ensures Fails(outcome) ==> r.state.tokenExpiry == st.tokenExpiry && r.state.user == st.user && r.state.cookie == st.cookie
    ensures r.state.sessionId == r.request.value.sessionId
    ensures st.messages != [] ==> r.state.currentConversation == st.currentConversation
    ensures st.messages != [] && (ForcesLogout(outcome) || Fails(outcome) || !outcome.body.reply.isArtifact) ==>
              r.state.conversations == st.conversations
    ensures st.messages == [] ==>
              && r.state.currentConversation == Some(r.state.sessionId)
              && |r.state.conversations| == |st.conversations| + 1
              && r.state.conversations[1..] == st.conversations
              && r.state.conversations[0].id == r.state.sessionId
  {
    var asked := Ask(st, message, sentAt, created);
    var answered := Answer(asked, outcome, answeredAt);
    Sent(answered, Some(ChatRequest(message, asked.sessionId, asked.authToken)))
  }

  /** What a handled reply leaves of the credentials and the list: the user
      is kept unless the reply carries one, the cookie is never touched while
      a token is held, and the list is the one after the user message,
      retitled only for an artifact. */
  lemma ConverseHandledFrame(st: AppState, message: string, sentAt: Stamp, answeredAt: Stamp, created: Option<string>, outcome: ChatOutcome)
    requires Truthy(st.authToken)
    ensures var r := Converse(st, message, sentAt, answeredAt, created, outcome).state;
            !ForcesLogout(outcome) && !Fails(outcome) ==>
              r.user == (if outcome.body.reply.user.Some? then outcome.body.reply.user else st.user) && r.cookie == st.cookie
    ensures var asked := Ask(st, message, sentAt, created);
            Converse(st, message, sentAt, answeredAt, created, outcome).state.conversations ==
              (if !ForcesLogout(outcome) && !Fails(outcome) && outcome.body.reply.isArtifact
               then RetitleCurrent(asked, Title(ReplyText(outcome.body.reply))).conversations
               else asked.conversations)
  {
  }

  /** `sendMessage()` with the input box's text, the clock readings for the
      user message and the answer, the server's id for a new conversation and
      the chat request's outcome. Blank input does nothing; without
      credentials only the session-expired notice is added; otherwise the
      user message and one answer message are added. */
  function Send(st: AppState, input: string, sentAt: Stamp, answeredAt: Stamp, created: Option<string>, outcome: ChatOutcome): (r: Sent)
    ensures Trim(input) == [] ==> r == Sent(st, None)
    ensures Trim(input) != [] && !IsAuthenticated(st).ok ==>
              && r.request.None?
              && r.state.messages == st.messages + [Message(ASSISTANT_ROLE, SESSION_EXPIRED, Some(sentAt), None)]
              && r.state.conversations == st.conversations
              && r.state.(messages := st.messages) == IsAuthenticated(st).state
    ensures Trim(input) != [] && IsAuthenticated(st).ok ==>
              r == Converse(IsAuthenticated(st).state, Trim(input), sentAt, answeredAt, created, outcome)
    ensures IsAuthenticated(st).ok && !ForcesLogout(outcome) ==> IsAuthenticated(r.state).ok
  {
    var message := Trim(input);
    if message == [] then Sent(st, None)
    else
      var auth := IsAuthenticated(st);
      if !auth.ok then Sent(Say(auth.state, SESSION_EXPIRED, sentAt), None)
      else Converse(auth.state, message, sentAt, answeredAt, created, outcome)
  }

  /** One press of the send button with everything the outside world supplies. */
  datatype Turn = Turn(input: string, sentAt: Stamp, answeredAt: Stamp, created: Option<string>, outcome: ChatOutcome)

  /** A sequence of sends, one after the other. */
  function SendAll(st: AppState, turns: seq<Turn>): AppState
    decreases |turns|
  {
    if turns == [] then st
    else
      var t := turns[0];
      SendAll(Send(st, t.input, t.sentAt, t.answeredAt, t.created, t.outcome).state, turns[1..])
  }

  /** While the session holds, every send of a non-blank input adds exactly
      two messages, keeping the earlier ones. */
  lemma {:induction false} SendAllAddsTwoPerTurn(st: AppState, turns: seq<Turn>)
    requires IsAuthenticated(st).ok
    requires forall i :: 0 <= i < |turns| ==> Trim(turns[i].input) != [] && !ForcesLogout(turns[i].outcome)
    ensures |SendAll(st, turns).messages| == |st.messages| + 2 * |turns|
    ensures SendAll(st, turns).messages[..|st.messages|] == st.messages
    ensures IsAuthenticated(SendAll(st, turns)).ok
    decreases |turns|
  {
    if turns != [] {
      var t := turns[0];
      var next := Send(st, t.input, t.sentAt, t.answeredAt, t.created, t.outcome).state;
      SendAllAddsTwoPerTurn(next, turns[1..]);
      var final := SendAll(next, turns[1..]);
      assert final.messages[..|st.messages|] == final.messages[..|next.messages|][..|st.messages|];
    }
  }

  /** Once the session has been ended by the server, a further send only adds
      the session-expired notice and makes no request. */
  lemma SendAfterForcedLogout(st: AppState, input: string, t1: Stamp, t2: Stamp, c: Option<string>, o: ChatOutcome,
                              input2: string, u1: Stamp, u2: Stamp, c2: Option<string>, o2: ChatOutcome)
    requires Trim(input) != [] && IsAuthenticated(st).ok && ForcesLogout(o)
    requires Trim(input2) != []
    ensures var s := Send(st, input, t1, t2, c, o).state;
            Send(s, input2, u1, u2, c2, o2) == Sent(Say(s, SESSION_EXPIRED, u1), None)
  {
  }
}

=== FILE: records.dfy ===
/** The server's conversation and message records and how the client maps
    them into its own entities (the list and get actions), together with the
    record the client saves for each new message. */
module Records {
  import opened Wrappers
  import opened Model

  /** A conversation as the list action returns it. */
  datatype ServerConversation = ServerConversation(
    id: string,
    title: Option<string>,
    createdAt: Option<Stamp>,
    updatedAt: Option<Stamp>,
    messageCount: Option<int>)

  /** The `metadata` field of a stored message: absent or empty, present but
      not parseable (or parsing to `null`), or parsed, with or without an
      `artifact` member. */
  datatype Metadata = NoMetadata | Unreadable | Decoded(artifact: Option<Artifact>)

  /** A message as the get action returns it. */
  datatype ServerMessage = ServerMessage(role: string, content: string, createdAt: Option<Stamp>, metadata: Metadata)

  /** One element of the list mapping: the title falls back to the
      placeholder when missing or empty, and the count to zero. */
  function ToConversation(c: ServerConversation): (r: Conversation)
    ensures r.id == c.id && r.createdAt == c.createdAt && r.updatedAt == c.updatedAt
    ensures r.title != []
    ensures Truthy(c.title) ==> r.title == c.title.value
    ensures !Truthy(c.title) ==> r.title == NEW_CONVERSATION
    ensures r.messageCount == Some(c.messageCount.GetOr(0))
  {
    var count := if c.messageCount.Some? && c.messageCount.value != 0 then c.messageCount.value else 0;
    Conversation(c.id, if Truthy(c.title) then c.title.value else NEW_CONVERSATION, c.createdAt, c.updatedAt, Some(count))
  }

  /** The list mapping: one conversation per record, in the server's order. */
  function ToConversations(cs: seq<ServerConversation>): (r: seq<Conversation>)
    ensures |r| == |cs|
    ensures forall i :: 0 <= i < |cs| ==> r[i].id == cs[i].id && r[i].title != []
    ensures forall i :: 0 <= i < |cs| ==> r[i] == ToConversation(cs[i])
  {
    seq(|cs|, i requires 0 <= i < |cs| => ToConversation(cs[i]))
  }

  /** The list mapping works element by element: mapping a list in two
      parts maps each part. */
  lemma ToConversationsAppend(a: seq<ServerConversation>, b: seq<ServerConversation>)
    ensures ToConversations(a + b) == ToConversations(a) + ToConversations(b)
  {
  }

  /** One element of the get mapping: a stored artifact comes back as the
      message's artifact, with the placeholder as its text. */
  function ToMessage(m: ServerMessage): (r: Message)
    ensures r.role == m.role && r.timestamp == m.createdAt
    ensures r.artifact.Some? <==> m.metadata.Decoded? && m.metadata.artifact.Some?
    ensures r.artifact.Some? ==> r.artifact == m.metadata.artifact && r.text == ARTIFACT_CREATED
    ensures r.artifact.None? ==> r.text == m.content
  {
    match m.metadata
    case Decoded(Some(a)) => Message(m.role, ARTIFACT_CREATED, m.createdAt, Some(a))
    case _ => Message(m.role, m.content, m.createdAt, None)
  }

  /** The get mapping. */
  function ToMessages(ms: seq<ServerMessage>): (r: seq<Message>)
    ensures |r| == |ms|
    ensures forall i :: 0 <= i < |ms| ==> r[i].role == ms[i].role
    ensures forall i :: 0 <= i < |ms| ==> r[i] == ToMessage(ms[i])
  {
    seq(|ms|, i requires 0 <= i < |ms| => ToMessage(ms[i]))
  }

  /** The message mapping works element by element too. */
  lemma ToMessagesAppend(a: seq<ServerMessage>, b: seq<ServerMessage>)
    ensures ToMessages(a + b) == ToMessages(a) + ToMessages(b)
  {
  }

  /** What the client saves for a new message: the artifact's full content
      as the message content when there is one, the text otherwise, and the
      artifact as metadata. `storedAt` is the time the server records. */
  function ToServerRecord(m: Message, storedAt: Option<Stamp>): (r: ServerMessage)
    ensures r.role == m.role && r.createdAt == storedAt
    ensures m.artifact.Some? ==> r.content == m.artifact.value.content && r.metadata == Decoded(m.artifact)
    ensures m.artifact.None? ==> r.content == m.text && r.metadata == NoMetadata
  {
    match m.artifact
    case Some(a) => ServerMessage(m.role, a.content, storedAt, Decoded(Some(a)))
    case None => ServerMessage(m.role, m.text, storedAt, NoMetadata)
  }

  /** A saved message loads back as itself, apart from the server's timestamp,
      whenever an artifact message carries the placeholder text, as every
      artifact message the client creates does. */
  lemma SavedMessageLoadsBack(m: Message, storedAt: Option<Stamp>)
    requires m.artifact.Some? ==> m.text == ARTIFACT_CREATED
    ensures ToMessage(ToServerRecord(m, storedAt)) == m.(timestamp := storedAt)
  {
  }

  /** The text of an artifact message is not saved: whatever it was, it loads
      back as the placeholder. */
  lemma ArtifactTextNotSaved(m: Message, storedAt: Option<Stamp>)
    requires m.artifact.Some?
    ensures ToMessage(ToServerRecord(m, storedAt)).text == ARTIFACT_CREATED
    ensures ToMessage(ToServerRecord(m, storedAt)).artifact == m.artifact
  {
  }
}

=== FILE: wrappers.dfy ===
/** The optional value used wherever the client holds `null`/`undefined` or an
    absent JSON field. */
module Wrappers {

  datatype Option<+T> = None | Some(value: T) {

    /** The held value, or `default` when there is none: `x || default` for a
        value whose only falsy form is absence. */
    function GetOr(default: T): T {
      match this
      case Some(v) => v
      case None() => default
    }
  }
}
